=== FILE: README.md ===
# Harvester Bamboo Specs, modelled in Dafny

The GeRDI harvester setup includes a Bamboo Specs generator. From a harvester
project, it derives a provider class name, a repository slug, a Bamboo key and
the developers' e-mail addresses. It then builds a static-analysis plan and a
deployment project from fixed constant tables, and publishes them to the Bamboo
server together with per-developer permission documents.

This project models three parts of that generator as immutable values and pure
functions, and proves their properties:

- **Metadata resolvers and key derivation** (`ProjectUtils` in both
  generators).
  - Each resolver is a function of what its I/O would have produced:
    - a directory listing with readable or unreadable creation times;
    - the lines of `pom.xml` and `.git/config`, or `None` when they cannot be
      opened;
    - the first line printed by `git rev-parse --show-toplevel`;
    - the `user.dir` property.
  - The three fixed Java regular expressions are written twice:
    - as direct matchers (`HarvesterFileCapture`, `SlugCapture`,
      `EmailCapture`);
    - as declarative "split" predicates.
  - Lemmas prove that the matcher yields a capture exactly when a split exists.
  - Each pattern splits a line in at most one way, so the lazy quantifiers
    cannot change `group(1)`.
- **Pipeline topology** (`HarvesterPlan`, `HarvesterDeployment` and the
  constant tables).
  - Plans, jobs, tasks, artifacts, repositories, triggers and environments are
    records.
  - `String.format` templates with one `%s` are a `Template` with `Fill` and
    its inverse `Unfill`.
  - A `WellFormed` predicate collects the plan's structural invariants, and
    `CreateWellFormed` proves that every created plan satisfies it.
- **Publication order.** `publish` returns the ordered trace of documents it
  would send.
  - The plan or deployment comes first.
  - Then come the permission documents, one block per developer in list order.
  - `Grantees` reads back who was granted what.

Modules:

| file | module | models |
|---|---|---|
| `wrappers.dfy` | `Wrappers` | `Option` and `Result` |
| `text.dfy` | `Text` | Java `\s`, `\w` and `.` classes; `String.contains` and `lastIndexOf`; ASCII `toUpperCase` |
| `patterns.dfy` | `Patterns` | the harvester file, repository slug and e-mail patterns |
| `keys.dfy` | `Keys` | `createBambooKey`: deleting `[a-z]` and appending a project code |
| `project_utils.dfy` | `ProjectUtils` | provider name, developer e-mails, repository slug, project root |
| `bamboo.dfy` | `Bamboo` | the configuration records, documents, templates and `Grantees` |
| `plan_constants.dfy` | `PlanConstants` | the plans generator's `RepositoryConstants`, `ArtifactConstants` and `BambooConstants` |
| `plan.dfy` | `HarvesterPlan` | the plan constructor, its invariants and `publish` |
| `deployment_constants.dfy` | `DeploymentConstants` | the deployments generator's `BambooConstants` |
| `deployment.dfy` | `HarvesterDeployment` | the deployment constructor and `publish` |
| `archived_names.dfy` | `ArchivedNames` | the archived naming templates |
| `specs_main.dfy` | `HarvesterBambooSpecs` | `main` and `createRepository` of the plans generator, and Java `split(" ")` |

`deployment.dfy` models the archived `HarvesterDeployment.java` together with
the deployments generator's constants table
(bamboo-specs/deployments/.../constants/BambooConstants.java). The archived
`BambooConstants` does not define `DEPLOYMENT_PROJECT_NAME`,
`DEPLOYMENT_PROJECT_DESCRIPTION`, `DEPLOYMENT_RELEASE_NAMING` or the
`*_ENVIRONMENT` and `*_ENVIRONMENT_NAME` constants, so those names resolve to that table, which is
`DeploymentConstants` here.

Points of the code that the model reproduces as written:

- The Test environment's trigger names no branch (`triggerByBranch` is not
  called): `AfterSuccessfulBuild(None)` at
  bamboo-specs/deployments/.../BambooConstants.java:104. What Bamboo then does
  is vendor behaviour (see "## Left out").
- `publish` sends the plan or deployment and then the permission documents
  one by one. It has no error handling of its own, so the model is a plain
  trace of documents.
- The harvester file pattern `(\w+)Harvester.java` keeps the name minus its
  last 14 characters.
  - The 14 are `Harvester` (9), one character matched by the unescaped `.`, and
    `java` (4).
  - That `.` matches any character except a Java line terminator, so
    `FooHarvesterXjava` is accepted as well.
- In the slug pattern `\s*url\s?=[\d\D]+?/([^/]+?).git`:
  - `[\d\D]` matches any character, line terminators included;
  - the `.` before `git` is again any non-terminator;
  - the slug is the text after the last `/` before the final four characters.

## Model

Paths are relative to the repository root. `A/` abbreviates
`archive/src/main/setup/bamboo-specs/src/main/java/de/gerdiproject/harvest/setup/`,
`P/` abbreviates `bamboo-specs/plans/src/main/java/de/gerdiproject/harvest/setup/`
and `D/` abbreviates
`bamboo-specs/deployments/src/main/java/de/gerdiproject/harvest/setup/`. The
source cells spell the paths out in full.

| member | source | states |
|---|---|---|
| Text.ToUpperAscii | bamboo-specs/plans/src/main/java/de/gerdiproject/harvest/setup/HarvesterBambooSpecs.java:58 | The project code is upper-cased character by character. The length is kept, `a`..`z` become `A`..`Z`, and every other character is unchanged. |
| Text.ToUpperAsciiIdempotent | bamboo-specs/plans/src/main/java/de/gerdiproject/harvest/setup/HarvesterBambooSpecs.java:58 | Upper-casing twice is the same as upper-casing once, and the result has no ASCII lower-case letter. |
| Text.ContainsSpec | archive/src/main/setup/bamboo-specs/src/main/java/de/gerdiproject/harvest/setup/utils/ProjectUtils.java:133-137 | The marker test `line.contains(tag)` holds exactly when `tag` occurs in the line at some index. |
| Text.LastIndexOf | bamboo-specs/plans/src/main/java/de/gerdiproject/harvest/setup/utils/ProjectUtils.java:185-188 | `lastIndexOf(c)` is absent (Java's `-1`) exactly when `c` does not occur. Otherwise it is a position holding `c` with no `c` after it. |
| Text.LastIndexOfJoin | bamboo-specs/plans/src/main/java/de/gerdiproject/harvest/setup/utils/ProjectUtils.java:185-188 | In `x + c + y`, where `y` has no `c`, the last `c` is at the position just after `x`, the length of `x`. |
| Patterns.HarvesterFileCaptureSpec | archive/src/main/setup/bamboo-specs/src/main/java/de/gerdiproject/harvest/setup/constants/BambooConstants.java:48 | A file name matches `(\w+)Harvester.java` with group `W` exactly when it is `W`, `Harvester`, one non-terminator, `java`, with `W` a non-empty word run. |
| Patterns.SlugCaptureSpec | archive/src/main/setup/bamboo-specs/src/main/java/de/gerdiproject/harvest/setup/constants/BambooConstants.java:53 | A line matches the slug pattern with group `slug` exactly when it reads: whitespace, `url`, at most one whitespace, `=`, a non-empty run, `/`, a non-empty slug without `/`, one non-terminator, `git`. |
| Patterns.SlugCaptureExample | archive/src/main/setup/bamboo-specs/src/main/java/de/gerdiproject/harvest/setup/constants/BambooConstants.java:53 | `url = ssh://git@host/proj/my-harvester.git` yields the slug `my-harvester`. |
| Patterns.SlugRejectsTrailingSpace | archive/src/main/setup/bamboo-specs/src/main/java/de/gerdiproject/harvest/setup/constants/BambooConstants.java:53 | A line ending in whitespace, such as a blank after `.git`, never matches. |
| Patterns.SlugRejectsTwoSpaces | archive/src/main/setup/bamboo-specs/src/main/java/de/gerdiproject/harvest/setup/constants/BambooConstants.java:53 | Two whitespace characters between `url` and `=` make the line not match, whatever follows. |
| Patterns.EmailCaptureSpec | archive/src/main/setup/bamboo-specs/src/main/java/de/gerdiproject/harvest/setup/constants/BambooConstants.java:64 | A line yields address `v` exactly when, as a whole, it is whitespace, `<email>`, a non-empty `v`, `</email>`, whitespace. |
| Patterns.EmailRejectsTrailingText | archive/src/main/setup/bamboo-specs/src/main/java/de/gerdiproject/harvest/setup/constants/BambooConstants.java:64 | A line whose last character is neither `>` nor whitespace yields no address, so other text after the closing tag loses the value. |
| Patterns.EmailCaptureExample | archive/src/main/setup/bamboo-specs/src/main/java/de/gerdiproject/harvest/setup/constants/BambooConstants.java:64 | An indented `<email>jane@example.org</email>` line yields `jane@example.org`. |
| Keys.StripLowercase | archive/src/main/setup/bamboo-specs/src/main/java/de/gerdiproject/harvest/setup/constants/BambooConstants.java:73 | `replaceAll("[a-z]", "")` returns an order-preserving subsequence of its input. It has no `a`..`z` and is as long as the input's non-lower-case part. |
| Keys.StripLowercaseUnique | archive/src/main/setup/bamboo-specs/src/main/java/de/gerdiproject/harvest/setup/utils/ProjectUtils.java:233 | The three properties of `StripLowercase` determine it: any string with them is exactly the input with `a`..`z` deleted. |
| Keys.BambooKey | bamboo-specs/plans/src/main/java/de/gerdiproject/harvest/setup/utils/ProjectUtils.java:206-211 | `createBambooKey(p, proj)` is an order-preserving, lower-case-free subsequence of `p` as long as `p` minus its lower-case letters, followed by `proj`. Without lower case in `proj`, the key has none. |
| Keys.ArchivedBambooKey | archive/src/main/setup/bamboo-specs/src/main/java/de/gerdiproject/harvest/setup/utils/ProjectUtils.java:230-235 | The archived key is the stripped name followed by `HAR`. It has no `a`..`z`, and its length is the non-lower-case count plus 3. |
| Keys.BambooKeyExamples | archive/src/main/setup/bamboo-specs/src/main/java/de/gerdiproject/harvest/setup/constants/BambooConstants.java:72-73 | `FaoStat` gives `FSHAR`. All-lower-case names give just `HAR`, so distinct providers can share a key. |
| ProjectUtils.OldestAmongSpec | archive/src/main/setup/bamboo-specs/src/main/java/de/gerdiproject/harvest/setup/utils/ProjectUtils.java:80-96 | The scan keeps the first file with the smallest readable time below the starting bound. It is strictly older than every earlier file and no younger than any later one. If no file is below the bound, the scan keeps its starting value. |
| ProjectUtils.OldestBelowUnique | archive/src/main/setup/bamboo-specs/src/main/java/de/gerdiproject/harvest/setup/utils/ProjectUtils.java:89-92 | Replacement only on `<` leaves exactly one first-oldest file: ties go to the earlier file. |
| ProjectUtils.OldestHarvesterFileSpec | archive/src/main/setup/bamboo-specs/src/main/java/de/gerdiproject/harvest/setup/utils/ProjectUtils.java:80-96 | Starting from `Long.MAX_VALUE`, nothing is found exactly when no file has a readable time below it, so a file stamped `Long.MAX_VALUE` is never chosen. Otherwise the first oldest file is found. |
| ProjectUtils.UnreadableFilesIgnored | archive/src/main/setup/bamboo-specs/src/main/java/de/gerdiproject/harvest/setup/utils/ProjectUtils.java:84-95 | Files whose attributes cannot be read do not change the choice: the scan over the readable files alone gives the same result. |
| ProjectUtils.ProviderClassNameSpec | archive/src/main/setup/bamboo-specs/src/main/java/de/gerdiproject/harvest/setup/utils/ProjectUtils.java:63-109 | The provider is absent for a missing, non-directory or unlistable directory, and when no file has a usable time. Otherwise it is group 1 of the harvester pattern on the first oldest file, absent if that name does not match. Unreadable files are irrelevant. |
| ProjectUtils.ProviderClassNameExample | archive/src/main/setup/bamboo-specs/src/main/java/de/gerdiproject/harvest/setup/utils/ProjectUtils.java:99-104 | Of `FooHarvester.java` (older) and `BarHarvester.java`, the provider is `Foo`. |
| ProjectUtils.FirstContaining | archive/src/main/setup/bamboo-specs/src/main/java/de/gerdiproject/harvest/setup/utils/ProjectUtils.java:133-137 | The line search stops at the first line from `from` on that contains the marker, or at the end. No line before it contains the marker. |
| ProjectUtils.CapturesAppend | archive/src/main/setup/bamboo-specs/src/main/java/de/gerdiproject/harvest/setup/utils/ProjectUtils.java:137-144 | Collection is line by line: a block split in two collects the values of the first part, then those of the second. |
| ProjectUtils.CapturesSpec | archive/src/main/setup/bamboo-specs/src/main/java/de/gerdiproject/harvest/setup/utils/ProjectUtils.java:137-144 | Every collected value is the capture of some line, and every line that matches contributes its value. |
| ProjectUtils.DeveloperEmailAddresses | archive/src/main/setup/bamboo-specs/src/main/java/de/gerdiproject/harvest/setup/utils/ProjectUtils.java:117-153 | A `pom.xml` that cannot be opened yields the empty list. |
| ProjectUtils.DeveloperEmailAddressesSpec | archive/src/main/setup/bamboo-specs/src/main/java/de/gerdiproject/harvest/setup/utils/ProjectUtils.java:130-144 | The addresses are exactly the e-mail captures from the first line containing `<developers>` up to, not including, the first later line containing `</developers>`. Without an opening marker there are none. |
| ProjectUtils.SectionAfterPrefix | archive/src/main/setup/bamboo-specs/src/main/java/de/gerdiproject/harvest/setup/utils/ProjectUtils.java:132-144 | Lines before the opening marker leave the developer block unchanged. |
| ProjectUtils.EmailsBeforeOpeningIgnored | archive/src/main/setup/bamboo-specs/src/main/java/de/gerdiproject/harvest/setup/utils/ProjectUtils.java:132-134 | Prepending lines without the opening marker does not change the result. |
| ProjectUtils.EmailsAfterClosingIgnored | archive/src/main/setup/bamboo-specs/src/main/java/de/gerdiproject/harvest/setup/utils/ProjectUtils.java:136-144 | Once an opening marker and a later closing marker are present, appended lines do not change the result. |
| ProjectUtils.SkipToMarker | archive/src/main/setup/bamboo-specs/src/main/java/de/gerdiproject/harvest/setup/utils/ProjectUtils.java:132-134 | The first loop stops at the index the declarative search finds. |
| ProjectUtils.CollectUntilMarker | archive/src/main/setup/bamboo-specs/src/main/java/de/gerdiproject/harvest/setup/utils/ProjectUtils.java:136-144 | The second loop collects the captures of the lines up to the closing marker, in line order. |
| ProjectUtils.ScanDeveloperEmailAddresses | bamboo-specs/plans/src/main/java/de/gerdiproject/harvest/setup/utils/ProjectUtils.java:121-157 | The two loops together compute the declarative result, and an unopenable file gives the empty list. The plans generator's copy runs the same loops. |
| ProjectUtils.FirstCapture | archive/src/main/setup/bamboo-specs/src/main/java/de/gerdiproject/harvest/setup/utils/ProjectUtils.java:202-212 | A found value is the capture of some line. |
| ProjectUtils.FirstCaptureSpec | archive/src/main/setup/bamboo-specs/src/main/java/de/gerdiproject/harvest/setup/utils/ProjectUtils.java:202-212 | Nothing is found exactly when no line matches. Otherwise the result is the capture of the first matching line. |
| ProjectUtils.FirstCaptureIgnoresLater | archive/src/main/setup/bamboo-specs/src/main/java/de/gerdiproject/harvest/setup/utils/ProjectUtils.java:206-209 | After the first match the loop breaks, so appended lines never change the result. |
| ProjectUtils.RepositorySlug | archive/src/main/setup/bamboo-specs/src/main/java/de/gerdiproject/harvest/setup/utils/ProjectUtils.java:187-220 | An unreadable `.git/config` gives no slug. |
| ProjectUtils.RepositorySlugSpec | archive/src/main/setup/bamboo-specs/src/main/java/de/gerdiproject/harvest/setup/utils/ProjectUtils.java:200-219 | The slug is the capture of the first line that matches the slug pattern, whatever lines follow it. |
| ProjectUtils.RepositorySlugAbsent | archive/src/main/setup/bamboo-specs/src/main/java/de/gerdiproject/harvest/setup/utils/ProjectUtils.java:200-219 | Without a matching line there is no slug. |
| ProjectUtils.ParentDirectory | bamboo-specs/plans/src/main/java/de/gerdiproject/harvest/setup/utils/ProjectUtils.java:183-191 | With a backslash, the result is the prefix before the last backslash. Otherwise, with a slash, it is the prefix before the last slash. With neither, the path is unchanged. |
| ProjectUtils.ParentDirectoryOfChild | bamboo-specs/plans/src/main/java/de/gerdiproject/harvest/setup/utils/ProjectUtils.java:185-191 | Adding a separator and a last component and then taking the parent gives back the prefix. A backslash separator wins even if slashes follow it. |
| ProjectUtils.ProjectRootDirectory | bamboo-specs/plans/src/main/java/de/gerdiproject/harvest/setup/utils/ProjectUtils.java:176-192 | A line printed by git is the root, unchanged. When git yields nothing, the root is a prefix of `user.dir`. It ends just before the last backslash, if there is one, otherwise just before the last slash. With neither separator it is all of `user.dir`. |
| Bamboo.UnfillFill | bamboo-specs/plans/src/main/java/de/gerdiproject/harvest/setup/constants/BambooConstants.java:56-57 | A name formatted from a one-`%s` template gives back its argument. |
| Bamboo.FillInjective | bamboo-specs/plans/src/main/java/de/gerdiproject/harvest/setup/constants/BambooConstants.java:56-57 | Distinct providers get distinct formatted names. |
| Bamboo.GranteesAppend | bamboo-specs/plans/src/main/java/de/gerdiproject/harvest/setup/HarvesterPlan.java:114-123 | Grantees are read document by document: the grantees of a joined trace are those of its parts, in order. |
| PlanConstants.UnquoteQuote | bamboo-specs/plans/src/main/java/de/gerdiproject/harvest/setup/constants/BambooConstants.java:67-70 | A quoted script argument gives back the unquoted text. |
| PlanConstants.WorkingDirectoriesDistinct | bamboo-specs/plans/src/main/java/de/gerdiproject/harvest/setup/constants/RepositoryConstants.java:39-40 | `sourceCode` and `scripts` differ, so the two checkout tasks never share a directory. |
| PlanConstants.ArtifactsSharedAndDistinct | bamboo-specs/plans/src/main/java/de/gerdiproject/harvest/setup/constants/ArtifactConstants.java:31-46 | `warFile`, `dockerfile` and `scripts` are all shared and pairwise distinct. |
| PlanConstants.PrepareWritesExportedFile | bamboo-specs/plans/src/main/java/de/gerdiproject/harvest/setup/constants/BambooConstants.java:63-76 | The prepare script's last quoted argument is the file the export task reads, `injectedVersions.ini`. |
| PlanConstants.ScriptsArtifactCoversScriptsCheckout | bamboo-specs/plans/src/main/java/de/gerdiproject/harvest/setup/constants/ArtifactConstants.java:28-46 | The scripts artifact has no location and its pattern begins with the scripts checkout directory. |
| HarvesterPlan.Create | bamboo-specs/plans/src/main/java/de/gerdiproject/harvest/setup/HarvesterPlan.java:56-73 | The plan is named after the provider and sits in project `CA` under the given key. Its repositories are the harvester repository, then the scripts repository. Its only trigger watches only the harvester repository. |
| HarvesterPlan.CreateLayout | bamboo-specs/plans/src/main/java/de/gerdiproject/harvest/setup/HarvesterPlan.java:63-98 | The plan has a provider description and at most ten concurrent builds. It has one stage `Default Stage` with one job `JOB1` named `Static Analysis Job`. The job runs the five tasks and declares the four artifact slots, each in source order. Plan branches follow the one-day clean-up policy. |
| HarvesterPlan.JobCheckoutItems | bamboo-specs/plans/src/main/java/de/gerdiproject/harvest/setup/constants/RepositoryConstants.java:60-70 | The job checks out the default repository into `sourceCode`, then the scripts repository into `scripts`. |
| HarvesterPlan.JobCheckoutsConsistent | bamboo-specs/plans/src/main/java/de/gerdiproject/harvest/setup/HarvesterPlan.java:80-85 | The checkouts come before every other task and resolve to plan repositories. Their directories are distinct, and the Maven build runs inside one of them. |
| HarvesterPlan.JobArtifactsConsistent | bamboo-specs/plans/src/main/java/de/gerdiproject/harvest/setup/HarvesterPlan.java:87-92 | Every declared artifact is shared and is taken from a checkout directory. |
| HarvesterPlan.JobVariablesPrepared | bamboo-specs/plans/src/main/java/de/gerdiproject/harvest/setup/HarvesterPlan.java:83-85 | Every variable file the job exports was named as the last argument of an earlier script task. |
| HarvesterPlan.PlanRepositoriesConsistent | bamboo-specs/plans/src/main/java/de/gerdiproject/harvest/setup/HarvesterPlan.java:68-73 | The two plan repositories have distinct names, and the trigger watches only a plan repository. |
| HarvesterPlan.CreateWellFormed | bamboo-specs/plans/src/main/java/de/gerdiproject/harvest/setup/HarvesterPlan.java:56-99 | Every created plan whose harvester repository is not named `BambooScripts` satisfies all of the invariants above. |
| HarvesterPlan.DeveloperPermissions | bamboo-specs/plans/src/main/java/de/gerdiproject/harvest/setup/HarvesterPlan.java:116-121 | A developer's permission is for that developer and never grants edit, build or admin. |
| HarvesterPlan.PermissionTrace | bamboo-specs/plans/src/main/java/de/gerdiproject/harvest/setup/HarvesterPlan.java:114-123 | There is one plan permission document per developer, at the developer's position in the list. |
| HarvesterPlan.Publish | bamboo-specs/plans/src/main/java/de/gerdiproject/harvest/setup/HarvesterPlan.java:109-124 | The plan is sent first, followed by one document per developer. |
| HarvesterPlan.PermissionTraceGrantees | bamboo-specs/plans/src/main/java/de/gerdiproject/harvest/setup/HarvesterPlan.java:114-123 | The developers granted by the permission documents are exactly the list, in order. |
| HarvesterPlan.PublishGrantsEachDeveloper | bamboo-specs/plans/src/main/java/de/gerdiproject/harvest/setup/HarvesterPlan.java:109-124 | In the whole trace, each developer is granted exactly once, in list order, and nobody else is. |
| HarvesterPlan.PublishShape | bamboo-specs/plans/src/main/java/de/gerdiproject/harvest/setup/HarvesterPlan.java:111-123 | The plan is sent once, at the start. Every later document is a permission on that plan's identifier. Each gives exactly view and clone to the developer, view to logged-in users, and view to anonymous users. |
| DeploymentConstants.TagVersionShared | bamboo-specs/deployments/src/main/java/de/gerdiproject/harvest/setup/constants/BambooConstants.java:40-77 | The release name is the tag-version variable of namespace `inject`; it applies to branches and does not auto-increment. The docker-push and tag tasks receive the same variable. |
| DeploymentConstants.EnvironmentNamesDistinct | bamboo-specs/deployments/src/main/java/de/gerdiproject/harvest/setup/constants/BambooConstants.java:80-98 | `Test`, `Stage` and `Production` are pairwise distinct. |
| HarvesterDeployment.Create | archive/src/main/setup/bamboo-specs/src/main/java/de/gerdiproject/harvest/setup/HarvesterDeployment.java:48-57 | The source plan identifier is passed through and the name gives back the provider. The description is the fixed Docker-image text. The release naming is the fixed tag-version naming, which applies to branches and does not auto-increment. The environments are Test, Stage and Production, in that order. |
| HarvesterDeployment.EnvironmentsDifferOnlyInTrigger | bamboo-specs/deployments/src/main/java/de/gerdiproject/harvest/setup/constants/BambooConstants.java:80-104 | The environments are equal apart from name and trigger, and all run clean, download, docker push, tag. Their names are distinct. Test's trigger names no branch, Stage's is `stage` and Production's is `production`. |
| HarvesterDeployment.SourcePlanIsAnalysisPlan | bamboo-specs/deployments/src/main/java/de/gerdiproject/harvest/setup/constants/BambooConstants.java:58 | A deployment whose source plan is built from the analysis project key `CA` and a plan key points at exactly the plan that `HarvesterPlan` creates for that key. |
| HarvesterDeployment.ReadsPlanVariables | bamboo-specs/deployments/src/main/java/de/gerdiproject/harvest/setup/constants/BambooConstants.java:40-54 | The release name is the tag-version variable of the namespace that the plan's export task injects into with result scope. |
| HarvesterDeployment.DeveloperPermissions | archive/src/main/setup/bamboo-specs/src/main/java/de/gerdiproject/harvest/setup/HarvesterDeployment.java:74-77 | Each deployment or environment permission gives the developer view only. |
| HarvesterDeployment.PermissionTrace | archive/src/main/setup/bamboo-specs/src/main/java/de/gerdiproject/harvest/setup/HarvesterDeployment.java:72-104 | There are four permission documents per developer. |
| HarvesterDeployment.Publish | archive/src/main/setup/bamboo-specs/src/main/java/de/gerdiproject/harvest/setup/HarvesterDeployment.java:67-105 | The deployment is sent first, and the trace has one document plus four per developer. |
| HarvesterDeployment.PermissionTraceBlocks | archive/src/main/setup/bamboo-specs/src/main/java/de/gerdiproject/harvest/setup/HarvesterDeployment.java:72-104 | Developer `i`'s block occupies positions `4i` to `4i+3` of the permission trace. |
| HarvesterDeployment.PublishBlocks | archive/src/main/setup/bamboo-specs/src/main/java/de/gerdiproject/harvest/setup/HarvesterDeployment.java:72-104 | Developer `i` receives the deployment, Test, Stage and Production documents at positions `1+4i` to `4+4i`. Every document after the first gives that developer view, plus logged-in and anonymous view. |
| HarvesterDeployment.PublishNamesExistingEnvironments | archive/src/main/setup/bamboo-specs/src/main/java/de/gerdiproject/harvest/setup/HarvesterDeployment.java:81-98 | Every environment permission names the created deployment and one of its environments. |
| HarvesterDeployment.BlockGrantees | archive/src/main/setup/bamboo-specs/src/main/java/de/gerdiproject/harvest/setup/HarvesterDeployment.java:73-103 | One block grants its developer once on the deployment and once on each environment. |
| HarvesterDeployment.PublishGrantsEachDeveloper | archive/src/main/setup/bamboo-specs/src/main/java/de/gerdiproject/harvest/setup/HarvesterDeployment.java:67-105 | On the deployment and on each environment, the developers are granted exactly once each, in list order. |
| ArchivedNames.PlanNamesDistinct | archive/src/main/setup/bamboo-specs/src/main/java/de/gerdiproject/harvest/setup/constants/BambooConstants.java:77-80 | No analysis plan name equals any deployment plan name, and each gives back its provider. |
| HarvesterBambooSpecs.JoinFields | bamboo-specs/plans/src/main/java/de/gerdiproject/harvest/setup/HarvesterBambooSpecs.java:60 | The space-separated fields, joined with single spaces, give back the string. |
| HarvesterBambooSpecs.JavaSplit | bamboo-specs/plans/src/main/java/de/gerdiproject/harvest/setup/HarvesterBambooSpecs.java:60 | `split(" ")` of a string without a space is that string alone, and no resulting field contains a space. |
| HarvesterBambooSpecs.JavaSplitJoin | bamboo-specs/plans/src/main/java/de/gerdiproject/harvest/setup/HarvesterBambooSpecs.java:60 | With a space present, the split is a prefix of the fields that drops only empty ones and does not end in an empty field. The fields join back to the input. |
| HarvesterBambooSpecs.JavaSplitExamples | bamboo-specs/plans/src/main/java/de/gerdiproject/harvest/setup/HarvesterBambooSpecs.java:60 | `a b` gives `[a, b]`, `a  b` gives `[a, "", b]`, `a ` gives `[a]`, and the empty string gives `[""]`. |
| HarvesterBambooSpecs.CreateRepository | bamboo-specs/plans/src/main/java/de/gerdiproject/harvest/setup/HarvesterBambooSpecs.java:102-114 | The repository name gives back the provider, the slug is the given one, the project is `HAR` and the branch is `master`. The name never equals the scripts repository's. |
| HarvesterBambooSpecs.Run | bamboo-specs/plans/src/main/java/de/gerdiproject/harvest/setup/HarvesterBambooSpecs.java:54-78 | `main` fails exactly when fewer than six arguments are given. Otherwise the trace starts with the plan. |
| HarvesterBambooSpecs.RunSpec | bamboo-specs/plans/src/main/java/de/gerdiproject/harvest/setup/HarvesterBambooSpecs.java:56-77 | Exactly one plan is sent, first, and it is well formed. It is keyed by the provider without `a`..`z` plus the upper-cased project, so the key has no lower case. It is named after the provider and linked to the slug argument. The developers split from the last argument are granted access in order. |
| HarvesterBambooSpecs.RunMissingArguments | bamboo-specs/plans/src/main/java/de/gerdiproject/harvest/setup/HarvesterBambooSpecs.java:56-60 | With fewer than six arguments, nothing is sent and the failure reports how many arguments were given. |

## Left out

- I/O is not modelled; its outcome is a parameter. This covers file reading, directory listing, attribute reading, running `git`, and reading `user.dir` and environment variables.
- `HarvesterFilenameFilter` is not part of this model. The listing is taken as already filtered.
- A read error partway through `pom.xml` or `.git/config` is not modelled. Such an error would keep the values collected so far; the model has only "readable" and "cannot be opened".
- Publishing to the server is not modelled: the connection, the credentials (`args[0]`, `args[1]`) and the server URL. `publish` returns the document trace instead.
- Failures of `bambooServer.publish` are not modelled. The source catches no exception there, so a failing publish aborts the rest of the loop. The model's trace is what a run without failures sends.
- The plans generator's `MavenConstants` is not part of this model. Its `ProjectUtils` reads `POM_XML_PATH`, the developers markers and `EMAIL_TAG_PATTERN` from there. They are taken to equal the archived `BambooConstants` values, so one e-mail scan serves both generators.
- The deployments generator's `VERSION_VARIABLE_FILE` is not modelled, because nothing in the source uses it.
- Logging and `System.out.println` are not modelled, because they have no effect on results.
- `getProviderClassName` of the plans generator is not modelled. It only reads the `testvar` environment variable, which is outside input.
- `getProjectRootDirectory` of the archived generator is not modelled. It has no fallback and returns the git output as read.
- The archived plan builders (`HarvesterCiPlan` and the archived plans `main`) are not modelled. They are superseded by `HarvesterPlan`. They use `ArtifactConstants.SCRIPT_ARTIFACTS`, which is not declared in the archived `ArtifactConstants.java`, and `BambooConstants.ASTYLE_CHECK_SCRIPT`, `DEFAULT_JOB_STAGE`, `DEPLOY_PLAN_NAME` and `MAVEN_DOCKER_PUSH_SCRIPT`, which are not declared in the archived `BambooConstants.java`.
- The deployments generator's `main` is not modelled. It only orchestrates, so the source plan identifier it builds is a parameter of `HarvesterDeployment.Create`.
- The archived `ArtifactConstants`, `RepositoryConstants` and `MavenConstants` duplicate patterns and tables that are modelled once. The unused `CHECK_MAVEN_SNAPSHOTS_TASK` is not modelled either.
- `UTIL_SCRIPT_ARTIFACT` is used by the plan (HarvesterPlan.java:90) but is not declared in the plans generator's `ArtifactConstants.java`, so it is kept as an unresolved, named artifact slot.
- The deployments generator's own `RepositoryConstants` is not part of this model. Its `BAMBOO_SCRIPTS_WORKING_DIR` is taken to be `scripts`, as in the plans generator.
- Server links, repository viewers and change-detection objects are not modelled, because they are vendor values with no property of their own.
- What Bamboo does with triggers, branch clean-up, Maven or Docker is out of scope; only the declared configuration values are modelled.
- A null provider name is not modelled, because neither key function handles one. The provider is always a string.
- Text.ToUpperAscii: upper-cases ASCII `a`..`z` only, because locale-dependent Unicode case mapping is outside the model.
- HarvesterPlan.CreateWellFormed: requires that the harvester repository is not called `BambooScripts`. Only then are the plan's repository names distinct; `createRepository` always satisfies this (`HarvesterBambooSpecs.CreateRepository`).

=== FILE: archived_names.dfy ===
/**
 * The naming templates of the archived generator's `BambooConstants`:
 * the analysis plan and deployment plan names.
 */
module ArchivedNames {
  import opened Wrappers
  import opened Bamboo
  import PlanConstants

  /** The archived analysis plan name has the same value as the plans generator's. */
  const AnalysisPlanName := PlanConstants.AnalysisPlanName
  const DeploymentPlanName := Template("", "-Harvester Deployment")

  /**
   * The analysis plan of one provider is never named like the deployment
   * plan of any provider, and both names give back their provider.
   */
  lemma PlanNamesDistinct(a: string, b: string)
    ensures AnalysisPlanName.Fill(a) != DeploymentPlanName.Fill(b)
    ensures AnalysisPlanName.Unfill(AnalysisPlanName.Fill(a)) == Some(a)
    ensures DeploymentPlanName.Unfill(DeploymentPlanName.Fill(b)) == Some(b)
  {
    var x, y := AnalysisPlanName.Fill(a), DeploymentPlanName.Fill(b);
    assert x[|x| - 1] == 's' && y[|y| - 1] == 't';
    UnfillFill(AnalysisPlanName, a);
    UnfillFill(DeploymentPlanName, b);
  }
}

=== FILE: bamboo.dfy ===
/**
 * The Bamboo Specs configuration records that the generator assembles, as
 * immutable values. Only the fields the generator sets are modelled; a
 * builder property the generator never sets is `None` where it is optional.
 */
module Bamboo {
  import opened Wrappers

  /**
   * A `String.format` template with exactly one `%s`: the text before the
   * placeholder and the text after it.
   */
  datatype Template = Template(before: string, after: string) {
    /** `String.format(template, arg)`. */
    function Fill(arg: string): (r: string)
      ensures |r| == |before| + |arg| + |after|
      ensures r[..|before|] == before && r[|before|..|before| + |arg|] == arg && r[|before| + |arg|..] == after
    {
      before + arg + after
    }

    /** The argument a filled name was made from, if the name has the template's shape. */
    function Unfill(name: string): (r: Option<string>)
      ensures r.Some? ==> Fill(r.value) == name
    {
      if |before| + |after| <= |name| && name[..|before|] == before && name[|name| - |after|..] == after
      then Some(name[|before|..|name| - |after|])
      else None
    }
  }

  /** Filling and unfilling are inverse: the argument is recovered from the name. */
  lemma UnfillFill(t: Template, arg: string)
    ensures t.Unfill(t.Fill(arg)) == Some(arg)
  {
    var name := t.Fill(arg);
    assert name[|name| - |t.after|..] == t.after;
  }

  /** Distinct arguments give distinct names. */
  lemma FillInjective(t: Template, a: string, b: string)
    requires t.Fill(a) == t.Fill(b)
    ensures a == b
  {
    UnfillFill(t, a);
    UnfillFill(t, b);
  }

  /** A Bitbucket Server repository as linked to a plan. */
  datatype Repository = Repository(
    name: string,
    projectKey: string,
    slug: string,
    branch: string,
    remoteAgentCacheEnabled: Option<bool>,
    fetchWholeRepository: Option<bool>,
    quietPeriodEnabled: Option<bool>)

  /** What a checkout item or a trigger points at. */
  datatype RepositoryRef = DefaultRepository | RepositoryNamed(name: string)

  datatype CheckoutItem = CheckoutItem(repository: RepositoryRef, path: string)

  datatype InjectScope = ResultScope | LocalScope

  datatype Task =
    | VcsCheckout(description: string, items: seq<CheckoutItem>)
    | Maven(description: string, goal: string, jdk: string, executableLabel: string,
            hasTests: bool, workingSubdirectory: Option<string>, useMavenReturnCode: bool)
    | ScriptFile(description: string, path: string, argument: string)
    | InjectVariables(description: string, path: string, namespace: string, scope: InjectScope)
    | CleanWorkingDirectory
    | DownloadAllArtifacts(description: string)

  /** A job artifact; `location` is `None` when the builder leaves it at the working directory. */
  datatype Artifact = Artifact(name: string, copyPattern: string, location: Option<string>, shared: bool)

  /**
   * An entry of a job's artifact list: a definition, or a reference to a
   * constant whose definition is not part of this model.
   */
  datatype ArtifactSlot = Declared(artifact: Artifact) | Unresolved(constantName: string)

  datatype Job = Job(name: string, key: string, tasks: seq<Task>, artifacts: seq<ArtifactSlot>)

  datatype Stage = Stage(name: string, jobs: seq<Job>)

  datatype BranchManagement = BranchManagement(createForVcsBranch: bool, deleteAfterDays: Option<nat>, notifyCommitters: bool)

  /** A Bitbucket Server trigger restricted to the selected repositories. */
  datatype PlanTrigger = SelectedRepositoriesTrigger(repositories: seq<string>)

  datatype ConcurrentBuilds = ConcurrentBuilds(useSystemWideDefault: bool, maximum: nat)

  datatype Plan = Plan(
    projectKey: string,
    name: string,
    key: string,
    description: string,
    concurrentBuilds: ConcurrentBuilds,
    repositories: seq<Repository>,
    triggers: seq<PlanTrigger>,
    stages: seq<Stage>,
    branchManagement: BranchManagement)

  datatype PlanIdentifier = PlanIdentifier(projectKey: string, planKey: string)

  /** `Plan.getIdentifier`. */
  function Identifier(p: Plan): (id: PlanIdentifier)
    ensures id.projectKey == p.projectKey && id.planKey == p.key
  {
    PlanIdentifier(p.projectKey, p.key)
  }

  /** An after-successful-build trigger, restricted to one named plan branch, or naming none. */
  datatype EnvironmentTrigger = AfterSuccessfulBuild(branch: Option<string>)

  datatype Environment = Environment(name: string, tasks: seq<Task>, triggers: seq<EnvironmentTrigger>)

  datatype ReleaseNaming = ReleaseNaming(nextVersionName: string, applicableToBranches: bool, autoIncrement: bool)

  datatype Deployment = Deployment(
    sourcePlan: PlanIdentifier,
    name: string,
    description: string,
    releaseNaming: ReleaseNaming,
    environments: seq<Environment>)

  datatype Right = View | Clone | Edit | Build | Admin

  /** The permissions of one document: one user's rights, the rights of any logged-in user, and anonymous view. */
  datatype Permissions = Permissions(user: string, userRights: set<Right>, loggedInRights: set<Right>, anonymousView: bool)

  /** One document sent to the Bamboo server. */
  datatype Document =
    | PlanDocument(plan: Plan)
    | DeploymentDocument(deployment: Deployment)
    | PlanPermissionsDocument(planId: PlanIdentifier, permissions: Permissions)
    | DeploymentPermissionsDocument(deploymentName: string, permissions: Permissions)
    | EnvironmentPermissionsDocument(deploymentName: string, environmentName: string, permissions: Permissions)
  {
    predicate IsPermissions() {
      PlanPermissionsDocument? || DeploymentPermissionsDocument? || EnvironmentPermissionsDocument?
    }
  }

  /** The users granted permissions by the documents of `trace` that `select` picks, in trace order. */
  function Grantees(trace: seq<Document>, select: Document -> bool): (users: seq<string>)
    ensures |users| <= |trace|
  {
    if |trace| == 0 then []
    else if trace[0].IsPermissions() && select(trace[0]) then [trace[0].permissions.user] + Grantees(trace[1..], select)
    else Grantees(trace[1..], select)
  }

  /** Grantees are collected document by document. */
  lemma {:induction false} GranteesAppend(a: seq<Document>, b: seq<Document>, select: Document -> bool)
    ensures Grantees(a + b, select) == Grantees(a, select) + Grantees(b, select)
    decreases |a|
  {
    if |a| == 0 {
      assert a + b == b;
    } else {
      assert (a + b)[0] == a[0];
      assert (a + b)[1..] == a[1..] + b;
      GranteesAppend(a[1..], b, select);
      if a[0].IsPermissions() && select(a[0]) {
        var x := [a[0].permissions.user];
        assert Grantees(a, select) == x + Grantees(a[1..], select);
        assert Grantees(a + b, select) == x + Grantees(a[1..] + b, select);
        assert x + (Grantees(a[1..], select) + Grantees(b, select))
            == (x + Grantees(a[1..], select)) + Grantees(b, select);
      } else {
        assert Grantees(a, select) == Grantees(a[1..], select);
        assert Grantees(a + b, select) == Grantees(a[1..] + b, select);
      }
    }
  }
}

=== FILE: deployment.dfy ===
/**
 * `HarvesterDeployment`: the deployment project of one harvester and the
 * documents its `publish` sends.
 */
module HarvesterDeployment {
  import opened Wrappers
  import opened Bamboo
  import opened DeploymentConstants
  import PlanConstants
  import HarvesterPlan

  /** The `HarvesterDeployment` constructor. */
  function Create(sourcePlan: PlanIdentifier, providerClassName: string): (d: Deployment)
    ensures d.sourcePlan == sourcePlan
    ensures DeploymentProjectName.Unfill(d.name) == Some(providerClassName)
    ensures |d.environments| == 3
    ensures d.environments[0].name == TestEnvironmentName
    ensures d.environments[1].name == StageEnvironmentName
    ensures d.environments[2].name == ProductionEnvironmentName
    ensures d.description == DeploymentProjectDescription
    ensures d.releaseNaming == DeploymentReleaseNaming
    ensures d.releaseNaming.applicableToBranches && !d.releaseNaming.autoIncrement
  {
    UnfillFill(DeploymentProjectName, providerClassName);
    Deployment(
      sourcePlan,
      DeploymentProjectName.Fill(providerClassName),
      DeploymentProjectDescription,
      DeploymentReleaseNaming,
      [TestEnvironment, StageEnvironment, ProductionEnvironment])
  }

  /**
   * The three environments run the same task chain (clean, download all
   * artifacts, docker push, tag) and differ only in name and in the branch
   * their single after-successful-build trigger is restricted to: none for
   * Test, `stage` for Stage, `production` for Production.
   */
  lemma EnvironmentsDifferOnlyInTrigger(sourcePlan: PlanIdentifier, providerClassName: string)
    ensures var envs := Create(sourcePlan, providerClassName).environments;
            && (forall i, j :: 0 <= i < |envs| && 0 <= j < |envs| ==>
                  envs[i] == envs[j].(name := envs[i].name, triggers := envs[i].triggers))
            && (forall i :: 0 <= i < |envs| ==>
                  envs[i].tasks == [CleanWorkingDirectory, DownloadAllTask, DockerPushTask, BitbucketTagTask])
            && (forall i, j :: 0 <= i < j < |envs| ==> envs[i].name != envs[j].name)
            && envs[0].triggers == [AfterSuccessfulBuild(None)]
            && envs[1].triggers == [AfterSuccessfulBuild(Some("stage"))]
            && envs[2].triggers == [AfterSuccessfulBuild(Some("production"))]
  {
  }

  /**
   * A source plan identifier built from this table's analysis project key
   * names the plan that the plans generator creates for the same plan key.
   */
  lemma SourcePlanIsAnalysisPlan(harvesterRepository: Repository, bambooKey: string, providerClassName: string)
    ensures var p := HarvesterPlan.Create(harvesterRepository, bambooKey, providerClassName);
            Create(PlanIdentifier(AnalysisProjectKey, bambooKey), providerClassName).sourcePlan == Identifier(p)
  {
  }

  /**
   * The deployment reads what the plan exports: the release name is the
   * tag-version variable of the namespace that the plan's export task
   * injects into with result scope.
   */
  lemma ReadsPlanVariables(sourcePlan: PlanIdentifier, providerClassName: string)
    ensures var d := Create(sourcePlan, providerClassName);
            && TagVersionReference.Unfill(d.releaseNaming.nextVersionName)
               == Some(PlanConstants.ExportVersionVariablesTask.namespace)
            && PlanConstants.ExportVersionVariablesTask.scope == ResultScope
  {
    TagVersionShared();
  }

  // ---------------------------------------------------------------------
  // publish
  // ---------------------------------------------------------------------

  /** The rights one developer receives on the deployment and each environment. */
  function DeveloperPermissions(dev: string): (perm: Permissions)
    ensures perm.user == dev && perm.userRights == {View}
  {
    Permissions(dev, {View}, {View}, true)
  }

  /** The four documents granted to one developer: deployment, Test, Stage, Production. */
  function DeveloperBlock(deploymentName: string, dev: string): (block: seq<Document>)
    ensures |block| == 4
  {
    var perm := DeveloperPermissions(dev);
    [DeploymentPermissionsDocument(deploymentName, perm),
     EnvironmentPermissionsDocument(deploymentName, TestEnvironmentName, perm),
     EnvironmentPermissionsDocument(deploymentName, StageEnvironmentName, perm),
     EnvironmentPermissionsDocument(deploymentName, ProductionEnvironmentName, perm)]
  }

  /** The blocks of all developers, in list order. */
  function PermissionTrace(deploymentName: string, devs: seq<string>): (r: seq<Document>)
    ensures |r| == 4 * |devs|
  {
    if |devs| == 0 then []
    else DeveloperBlock(deploymentName, devs[0]) + PermissionTrace(deploymentName, devs[1..])
  }

  /** `publish`: the documents sent to the server, in order. */
  function Publish(d: Deployment, devs: seq<string>): (trace: seq<Document>)
    ensures |trace| == 1 + 4 * |devs|
    ensures trace[0] == DeploymentDocument(d)
  {
    [DeploymentDocument(d)] + PermissionTrace(d.name, devs)
  }

  /** Developer `i`'s block sits at positions `4 * i` to `4 * i + 3` of the permission trace. */
  lemma {:induction false} PermissionTraceBlocks(deploymentName: string, devs: seq<string>)
    ensures forall i, k :: 0 <= i < |devs| && 0 <= k < 4 ==>
              PermissionTrace(deploymentName, devs)[4 * i + k] == DeveloperBlock(deploymentName, devs[i])[k]
    decreases |devs|
  {
    if |devs| > 0 {
      var rest := PermissionTrace(deploymentName, devs[1..]);
      PermissionTraceBlocks(deploymentName, devs[1..]);
      forall i, k | 0 <= i < |devs| && 0 <= k < 4
        ensures PermissionTrace(deploymentName, devs)[4 * i + k] == DeveloperBlock(deploymentName, devs[i])[k]
      {
        if i > 0 {
          assert 4 * i + k == 4 + (4 * (i - 1) + k);
          assert devs[i] == devs[1..][i - 1];
        }
      }
    }
  }

  /**
   * After the deployment itself, developer `i` receives exactly the four
   * documents deployment, Test, Stage, Production at positions `1 + 4 * i`
   * to `4 + 4 * i`, each giving them view only, with logged-in view and
   * anonymous view.
   */
  lemma PublishBlocks(d: Deployment, devs: seq<string>)
    ensures forall i, k :: 0 <= i < |devs| && 0 <= k < 4 ==>
              Publish(d, devs)[1 + 4 * i + k] == DeveloperBlock(d.name, devs[i])[k]
    ensures forall j :: 1 <= j < |Publish(d, devs)| ==>
              var doc := Publish(d, devs)[j];
              && doc.IsPermissions() && !doc.PlanPermissionsDocument?
              && doc.permissions.userRights == {View}
              && doc.permissions.loggedInRights == {View}
              && doc.permissions.anonymousView
  {
    PublishPositions(d, devs);
    PublishRights(d, devs);
  }

  /** Developer `i`'s block follows the deployment document at positions `1 + 4 * i` to `4 + 4 * i`. */
  lemma PublishPositions(d: Deployment, devs: seq<string>)
    ensures forall i, k :: 0 <= i < |devs| && 0 <= k < 4 ==>
              Publish(d, devs)[1 + 4 * i + k] == DeveloperBlock(d.name, devs[i])[k]
  {
    PermissionTraceBlocks(d.name, devs);
  }

  /** Every document after the deployment grants view only, with logged-in view and anonymous view. */
  lemma PublishRights(d: Deployment, devs: seq<string>)
    ensures forall j :: 1 <= j < |Publish(d, devs)| ==>
              var doc := Publish(d, devs)[j];
              && doc.IsPermissions() && !doc.PlanPermissionsDocument?
              && doc.permissions.userRights == {View}
              && doc.permissions.loggedInRights == {View}
              && doc.permissions.anonymousView
  {
    PublishPositions(d, devs);
    var trace := Publish(d, devs);
    forall j | 1 <= j < |trace|
      ensures trace[j].IsPermissions() && !trace[j].PlanPermissionsDocument?
      ensures trace[j].permissions.userRights == {View} && trace[j].permissions.loggedInRights == {View}
      ensures trace[j].permissions.anonymousView
    {
      var i, k := BlockPosition(j - 1);
      assert i < |devs|;
      BlockRights(d.name, devs[i], k);
    }
  }

  /** Position `j` of the permission trace is entry `k` of block `i`. */
  lemma BlockPosition(j: nat) returns (i: nat, k: nat)
    ensures j == 4 * i + k && k < 4
  {
    i, k := j / 4, j % 4;
  }

  /** Every document of a block grants view only, with logged-in view and anonymous view. */
  lemma BlockRights(deploymentName: string, dev: string, k: nat)
    requires k < 4
    ensures var doc := DeveloperBlock(deploymentName, dev)[k];
            && doc.IsPermissions() && !doc.PlanPermissionsDocument?
            && doc.permissions.userRights == {View} && doc.permissions.loggedInRights == {View}
            && doc.permissions.anonymousView
  {
  }

  /** Every environment permission names an environment of the created deployment. */
  lemma PublishNamesExistingEnvironments(sourcePlan: PlanIdentifier, providerClassName: string, devs: seq<string>)
    ensures var d := Create(sourcePlan, providerClassName);
            forall j :: 0 <= j < |Publish(d, devs)| && Publish(d, devs)[j].EnvironmentPermissionsDocument? ==>
              Publish(d, devs)[j].deploymentName == d.name &&
              exists e :: 0 <= e < |d.environments| && d.environments[e].name == Publish(d, devs)[j].environmentName
  {
    var d := Create(sourcePlan, providerClassName);
    var trace := Publish(d, devs);
    PermissionTraceBlocks(d.name, devs);
    forall j | 0 <= j < |trace| && trace[j].EnvironmentPermissionsDocument?
      ensures trace[j].deploymentName == d.name
      ensures exists e :: 0 <= e < |d.environments| && d.environments[e].name == trace[j].environmentName
    {
      assert j >= 1;
      var i, k := (j - 1) / 4, (j - 1) % 4;
      assert j == 1 + 4 * i + k;
      var b := DeveloperBlock(d.name, devs[i]);
      assert trace[j] == b[k];
      assert k == 1 || k == 2 || k == 3;
      assert d.environments[k - 1].name == trace[j].environmentName;
    }
  }

  /** Picks the documents about the deployment itself, or about one named environment. */
  predicate IsDeploymentPermissions(doc: Document) {
    doc.DeploymentPermissionsDocument?
  }

  predicate IsEnvironmentPermissions(environmentName: string, doc: Document) {
    doc.EnvironmentPermissionsDocument? && doc.environmentName == environmentName
  }

  lemma {:induction false} PermissionTraceGrantees(deploymentName: string, devs: seq<string>, select: Document -> bool)
    requires forall dev :: Grantees(DeveloperBlock(deploymentName, dev), select) == [dev]
    ensures Grantees(PermissionTrace(deploymentName, devs), select) == devs
    decreases |devs|
  {
    if |devs| > 0 {
      GranteesAppend(DeveloperBlock(deploymentName, devs[0]), PermissionTrace(deploymentName, devs[1..]), select);
      PermissionTraceGrantees(deploymentName, devs[1..], select);
    }
  }

  /** One block grants its developer once on the deployment and once on each environment. */
  lemma BlockGrantees(deploymentName: string, dev: string, e: string)
    requires e in {TestEnvironmentName, StageEnvironmentName, ProductionEnvironmentName}
    ensures Grantees(DeveloperBlock(deploymentName, dev), IsDeploymentPermissions) == [dev]
    ensures Grantees(DeveloperBlock(deploymentName, dev), doc => IsEnvironmentPermissions(e, doc)) == [dev]
  {
    var b := DeveloperBlock(deploymentName, dev);
    var envSelect := doc => IsEnvironmentPermissions(e, doc);
    assert b[4..] == [];
    assert b[3..] == [b[3]] && b[3..][1..] == b[4..];
    assert b[2..][1..] == b[3..];
    assert b[1..][1..] == b[2..];
    assert Grantees(b[3..], IsDeploymentPermissions) == [];
    assert Grantees(b[2..], IsDeploymentPermissions) == [];
    assert Grantees(b[1..], IsDeploymentPermissions) == [];
    if e == TestEnvironmentName {
      assert Grantees(b[2..], envSelect) == [];
      assert Grantees(b[1..], envSelect) == [dev];
    } else if e == StageEnvironmentName {
      assert Grantees(b[3..], envSelect) == [];
      assert Grantees(b[2..], envSelect) == [dev];
    } else {
      assert Grantees(b[3..], envSelect) == [dev];
    }
  }

  /**
   * On the deployment and on each of its three environments, the developers
   * are granted permissions exactly once each, in list order.
   */
  lemma PublishGrantsEachDeveloper(d: Deployment, devs: seq<string>, e: string)
    requires e in {TestEnvironmentName, StageEnvironmentName, ProductionEnvironmentName}
    ensures Grantees(Publish(d, devs), IsDeploymentPermissions) == devs
    ensures Grantees(Publish(d, devs), doc => IsEnvironmentPermissions(e, doc)) == devs
  {
    var envSelect := doc => IsEnvironmentPermissions(e, doc);
    forall dev
      ensures Grantees(DeveloperBlock(d.name, dev), IsDeploymentPermissions) == [dev]
      ensures Grantees(DeveloperBlock(d.name, dev), envSelect) == [dev]
    {
      BlockGrantees(d.name, dev, e);
    }
    PermissionTraceGrantees(d.name, devs, IsDeploymentPermissions);
    PermissionTraceGrantees(d.name, devs, envSelect);
    var head := [DeploymentDocument(d)];
    GranteesAppend(head, PermissionTrace(d.name, devs), IsDeploymentPermissions);
    GranteesAppend(head, PermissionTrace(d.name, devs), envSelect);
    assert head[1..] == [];
  }
}

=== FILE: deployment_constants.dfy ===
/**
 * The constant table of the deployments generator (`BambooConstants`):
 * release naming, the deployment task chain and the three environments.
 */
module DeploymentConstants {
  import opened Wrappers
  import opened Bamboo

  const VariableInjectionNamespace := "inject"

  /** A Bamboo variable reference `${bamboo.<namespace>.tag.version}`, with the namespace as placeholder. */
  const TagVersionReference := Template("${bamboo.", ".tag.version}")
  const TagVersionVariable := TagVersionReference.Fill(VariableInjectionNamespace)

  const DeploymentProjectName := Template("", "-Harvester")
  const DeploymentProjectDescription := "Builds a Docker Image of the Harvester and registers it at the Docker Registry."

  const DeploymentReleaseNaming := ReleaseNaming(TagVersionVariable, true, false)

  const AnalysisProjectKey := "CA"

  /** The scripts checkout directory of the deployments generator's own `RepositoryConstants`. */
  const BambooScriptsWorkingDir := "scripts"

  const DownloadAllTask := DownloadAllArtifacts("Download Artifacts")

  /** The second `description` call of the builder replaces the first. */
  const DockerPushTask :=
    ScriptFile("Create and add an image to the Docker registry",
               BambooScriptsWorkingDir + "/docker-push.sh",
               "\"<maven>\" \"" + TagVersionVariable + "\" \"<gerdi>\"")

  const BitbucketTagTask :=
    ScriptFile("Tag Git Repository", "./scripts/deployment/tag-bitbucket-repository.sh", TagVersionVariable)

  /** The chain of tasks every environment runs. */
  const DeploymentTasks := [CleanWorkingDirectory, DownloadAllTask, DockerPushTask, BitbucketTagTask]

  const ProductionEnvironmentName := "Production"
  const ProductionEnvironment :=
    Environment(ProductionEnvironmentName, DeploymentTasks, [AfterSuccessfulBuild(Some("production"))])

  const StageEnvironmentName := "Stage"
  const StageEnvironment :=
    Environment(StageEnvironmentName, DeploymentTasks, [AfterSuccessfulBuild(Some("stage"))])

  const TestEnvironmentName := "Test"
  const TestEnvironment :=
    Environment(TestEnvironmentName, DeploymentTasks, [AfterSuccessfulBuild(None)])

  /** The release name and both script tasks read the same tag-version variable, taken from namespace `inject`. */
  lemma TagVersionShared()
    ensures TagVersionReference.Unfill(DeploymentReleaseNaming.nextVersionName) == Some(VariableInjectionNamespace)
    ensures BitbucketTagTask.argument == TagVersionVariable
    ensures DockerPushTask.argument[11..11 + |TagVersionVariable|] == TagVersionVariable
    ensures DeploymentReleaseNaming.applicableToBranches && !DeploymentReleaseNaming.autoIncrement
  {
    UnfillFill(TagVersionReference, VariableInjectionNamespace);
  }

  /** The environment names are pairwise distinct. */
  lemma EnvironmentNamesDistinct()
    ensures TestEnvironmentName != StageEnvironmentName
    ensures TestEnvironmentName != ProductionEnvironmentName
    ensures StageEnvironmentName != ProductionEnvironmentName
  {
  }
}

=== FILE: keys.dfy ===
/**
 * Bamboo key derivation: the provider class name with every `[a-z]`
 * character removed (`replaceAll("[a-z]", "")`), followed by a project code.
 */
module Keys {
  import opened Text

  /** The archived generator appends this project abbreviation. */
  const HarvesterAbbreviation := "HAR"

  /** `r` can be obtained from `p` by deleting characters, keeping the order of the rest. */
  predicate IsSubsequence(r: string, p: string)
    decreases |p|
  {
    |r| == 0 || (|p| > 0 && ((r[0] == p[0] && IsSubsequence(r[1..], p[1..])) || IsSubsequence(r, p[1..])))
  }

  predicate NoLowercase(s: string) {
    forall i :: 0 <= i < |s| ==> !IsLower(s[i])
  }

  /** Number of `[a-z]` characters in `s`. */
  function LowercaseCount(s: string): (n: nat)
    ensures n <= |s|
  {
    if |s| == 0 then 0 else (if IsLower(s[0]) then 1 else 0) + LowercaseCount(s[1..])
  }

  /**
   * `p.replaceAll("[a-z]", "")`: an order-preserving subsequence of `p` with
   * no lowercase letter and as long as the non-lowercase part of `p`, which
   * together pin it down as exactly the non-lowercase characters of `p`.
   */
  function StripLowercase(p: string): (r: string)
    ensures NoLowercase(r)
    ensures IsSubsequence(r, p)
    ensures |r| == |p| - LowercaseCount(p)
  {
    if |p| == 0 then []
    else
      var rest := StripLowercase(p[1..]);
      assert p == [p[0]] + p[1..];
      if IsLower(p[0]) then
        assert |rest| == 0 || IsSubsequence(rest, p[1..]);
        rest
      else
        var r := [p[0]] + rest;
        assert r[1..] == rest;
        r
  }

  /**
   * `createBambooKey(providerClassName, project)` of the current generator
   * and the key computed in its `main`: the stripped provider name, then the
   * project code unchanged.
   */
  function BambooKey(providerClassName: string, project: string): (k: string)
    ensures |k| == |providerClassName| - LowercaseCount(providerClassName) + |project|
    ensures k[|k| - |project|..] == project
    ensures IsSubsequence(k[..|k| - |project|], providerClassName)
    ensures NoLowercase(k[..|k| - |project|])
    ensures NoLowercase(project) ==> NoLowercase(k)
  {
    var stripped := StripLowercase(providerClassName);
    var k := stripped + project;
    assert k[..|stripped|] == stripped;
    k
  }

  /** `createBambooKey(providerClassName)` of the archived generator: the abbreviation is always `HAR`. */
  function ArchivedBambooKey(providerClassName: string): (k: string)
    ensures NoLowercase(k)
    ensures |k| == |providerClassName| - LowercaseCount(providerClassName) + 3
    ensures k[|k| - 3..] == HarvesterAbbreviation
    ensures IsSubsequence(k[..|k| - 3], providerClassName)
  {
    assert NoLowercase(HarvesterAbbreviation);
    BambooKey(providerClassName, HarvesterAbbreviation)
  }

  /** Worked examples: only capitals survive, and an all-lowercase name leaves just the project code. */
  lemma BambooKeyExamples()
    ensures BambooKey("FaoStat", "HAR") == "FSHAR"
    ensures BambooKey("abc", "HAR") == "HAR"
    ensures BambooKey("abc", "HAR") == BambooKey("xyz", "HAR")
  {
    StripLowercaseStep("t");
    assert StripLowercase("t") == [];
    assert "at"[1..] == "t";
    StripLowercaseStep("at");
    assert StripLowercase("at") == [];
    assert "tat"[1..] == "at";
    StripLowercaseStep("tat");
    assert StripLowercase("tat") == [];
    assert "Stat"[1..] == "tat";
    StripLowercaseStep("Stat");
    assert StripLowercase("Stat") == "S";
    assert "oStat"[1..] == "Stat";
    StripLowercaseStep("oStat");
    assert "aoStat"[1..] == "oStat";
    StripLowercaseStep("aoStat");
    assert "FaoStat"[1..] == "aoStat";
    StripLowercaseStep("FaoStat");
    assert StripLowercase("FaoStat") == "FS";
    AllLowercaseStripped("abc");
    AllLowercaseStripped("xyz");
  }

  lemma AllLowercaseStripped(p: string)
    requires forall i :: 0 <= i < |p| ==> IsLower(p[i])
    ensures StripLowercase(p) == []
  {
  }

  /** One step of `StripLowercase`, for unfolding it on literals. */
  lemma StripLowercaseStep(p: string)
    requires |p| > 0
    ensures StripLowercase(p) == (if IsLower(p[0]) then [] else [p[0]]) + StripLowercase(p[1..])
  {
  }

  /** A subsequence of `q` without lowercase letters is at most as long as the non-lowercase part of `q`. */
  lemma {:induction false} NoLowercaseSubsequenceBound(r: string, q: string)
    requires IsSubsequence(r, q) && NoLowercase(r)
    ensures |r| <= |q| - LowercaseCount(q)
    decreases |q|
  {
    if |r| > 0 {
      if r[0] == q[0] && IsSubsequence(r[1..], q[1..]) {
        NoLowercaseSubsequenceBound(r[1..], q[1..]);
      } else {
        NoLowercaseSubsequenceBound(r, q[1..]);
      }
    }
  }

  /**
   * The three properties promised by `StripLowercase` determine its result:
   * any order-preserving, lowercase-free subsequence of `p` that is as long
   * as the non-lowercase part of `p` is `StripLowercase(p)`.
   */
  lemma {:induction false} StripLowercaseUnique(r: string, p: string)
    requires IsSubsequence(r, p) && NoLowercase(r)
    requires |r| == |p| - LowercaseCount(p)
    ensures r == StripLowercase(p)
    decreases |p|
  {
    if |r| == 0 {
    } else if r[0] == p[0] && IsSubsequence(r[1..], p[1..]) {
      StripLowercaseUnique(r[1..], p[1..]);
    } else {
      NoLowercaseSubsequenceBound(r, p[1..]);
      if IsLower(p[0]) {
        StripLowercaseUnique(r, p[1..]);
      }
    }
  }
}

=== FILE: patterns.dfy ===
/**
 * The three fixed regular expressions of the archived BambooConstants, each
 * applied with `Matcher.matches()` (the whole input must match) and read
 * back through `group(1)`.
 *
 * Each pattern is given twice: as a declarative "split" predicate that says
 * how an input decomposes into the pattern's parts, and as a direct matcher
 * that computes the capture. The lemmas prove that the matcher returns a
 * capture exactly when a split exists, and that it returns that split's
 * group. Every one of the three patterns has at most one split of a given
 * input, so the lazy quantifiers of the source cannot change group 1.
 */
module Patterns {
  import opened Wrappers
  import opened Text

  const HarvesterInfix := "Harvester"
  const JavaSuffix := "java"
  const UrlKey := "url"
  const GitSuffix := "git"
  const EqualsSign := "="
  const Slash := "/"
  const EmailOpeningTag := "<email>"
  const EmailClosingTag := "</email>"

  // ---------------------------------------------------------------------
  // HARVESTER_FILE_PATTERN: (\w+)Harvester.java   (the `.` is unescaped)
  // ---------------------------------------------------------------------

  /** `name` reads as a word run `w`, then `Harvester`, any one non-terminator `c`, then `java`. */
  ghost predicate IsHarvesterFileSplit(name: string, w: string, c: char) {
    && |w| > 0
    && AllWordChars(w)
    && !IsLineTerminator(c)
    && name == w + HarvesterInfix + [c] + JavaSuffix
  }

  /** Group 1 of the harvester file pattern, or `None` when the name does not match as a whole. */
  function HarvesterFileCapture(name: string): Option<string> {
    var n := |name|;
    if n >= 15
       && AllWordChars(name[..n - 14])
       && name[n - 14..n - 5] == HarvesterInfix
       && !IsLineTerminator(name[n - 5])
       && name[n - 4..] == JavaSuffix
    then Some(name[..n - 14])
    else None
  }

  /** The matcher captures `w` exactly when `name` splits with word run `w`. */
  lemma HarvesterFileCaptureSpec(name: string, w: string)
    ensures HarvesterFileCapture(name) == Some(w) <==> exists c :: IsHarvesterFileSplit(name, w, c)
  {
    var n := |name|;
    if HarvesterFileCapture(name) == Some(w) {
      assert name == name[..n - 14] + name[n - 14..n - 5] + [name[n - 5]] + name[n - 4..];
      assert IsHarvesterFileSplit(name, w, name[n - 5]);
    }
    if c :| IsHarvesterFileSplit(name, w, c) {
      assert name[..n - 14] == w;
      assert name[n - 14..n - 5] == HarvesterInfix;
      assert name[n - 5] == c;
      assert name[n - 4..] == JavaSuffix;
    }
  }

  // ---------------------------------------------------------------------
  // REPOSITORY_SLUG_PATTERN: \s*url\s?=[\d\D]+?/([^/]+?).git
  // ---------------------------------------------------------------------

  /**
   * `line` reads as leading whitespace `ws`, `url`, at most one whitespace
   * character `sep`, `=`, a non-empty run, `/`, a non-empty slug without
   * `/`, any one non-terminator `c`, and `git` at the very end.
   */
  ghost predicate IsSlugLineSplit(line: string, ws: string, sep: string, run: string, slug: string, c: char) {
    && AllSpace(ws)
    && |sep| <= 1 && AllSpace(sep)
    && |run| > 0
    && |slug| > 0 && '/' !in slug
    && !IsLineTerminator(c)
    && line == ws + (UrlKey + (sep + (EqualsSign + (run + (Slash + (slug + ([c] + GitSuffix)))))))
  }

  /** Index of the `=` that follows `\s*url\s?`, if the line starts that way. */
  function EqualsSignIndex(line: string): (r: Option<nat>)
    ensures r.Some? ==> r.value < |line| && line[r.value] == '='
  {
    var p := LeadingSpaces(line) + 3;
    if p > |line| || line[p - 3..p] != UrlKey then None
    else if p < |line| && line[p] == '=' then Some(p)
    else if p + 1 < |line| && IsSpace(line[p]) && line[p + 1] == '=' then Some(p + 1)
    else None
  }

  /** Group 1 of the slug pattern, or `None` when the line does not match as a whole. */
  function SlugCapture(line: string): Option<string> {
    var n := |line|;
    match EqualsSignIndex(line)
    case None => None
    case Some(e) =>
      if n < 4 || line[n - 3..] != GitSuffix || IsLineTerminator(line[n - 4]) then None
      else
        match LastIndexOf(line[..n - 4], '/')
        case None => None
        case Some(k) => if e + 2 <= k && k + 1 < n - 4 then Some(line[k + 1..n - 4]) else None
  }

  /** The matcher captures `slug` exactly when `line` splits with that slug. */
  lemma SlugCaptureSpec(line: string, slug: string)
    ensures SlugCapture(line) == Some(slug) <==>
            exists ws, sep, run, c :: IsSlugLineSplit(line, ws, sep, run, slug, c)
  {
    if SlugCapture(line) == Some(slug) {
      var ws, sep, run, c := SlugCaptureSound(line);
    }
    if ws, sep, run, c :| IsSlugLineSplit(line, ws, sep, run, slug, c) {
      SlugCaptureComplete(line, ws, sep, run, slug, c);
    }
  }

  lemma SlugCaptureSound(line: string) returns (ws: string, sep: string, run: string, c: char)
    requires SlugCapture(line).Some?
    ensures IsSlugLineSplit(line, ws, sep, run, SlugCapture(line).value, c)
  {
    var ls, e, k := SlugCaptureFound(line);
    SlugSplitAt(line, ls, e, k);
    var n := |line|;
    ws, sep, run, c := line[..ls], line[ls + 3..e], line[e + 1..k], line[n - 4];
  }

  /** The positions the matcher found: end of leading whitespace, the `=`, and the last `/` before the suffix. */
  lemma SlugCaptureFound(line: string) returns (ls: nat, e: nat, k: nat)
    requires SlugCapture(line).Some?
    ensures ls + 3 <= e <= ls + 4 && e + 2 <= k && k + 1 < |line| - 4
    ensures AllSpace(line[..ls]) && line[ls..ls + 3] == UrlKey && AllSpace(line[ls + 3..e]) && line[e] == '='
    ensures line[k] == '/' && '/' !in line[k + 1..|line| - 4]
    ensures !IsLineTerminator(line[|line| - 4]) && line[|line| - 3..] == GitSuffix
    ensures SlugCapture(line).value == line[k + 1..|line| - 4]
  {
    var n := |line|;
    e := EqualsSignIndex(line).value;
    k := LastIndexOf(line[..n - 4], '/').value;
    assert line[..n - 4][k + 1..] == line[k + 1..n - 4];
    assert line[..n - 4][k] == line[k];
    EqualsSignIndexFacts(line);
    ls := LeadingSpaces(line);
  }

  /** What a found `=` tells about the start of the line. */
  lemma EqualsSignIndexFacts(line: string)
    requires EqualsSignIndex(line).Some?
    ensures var ls, e := LeadingSpaces(line), EqualsSignIndex(line).value;
      && ls + 3 <= e <= ls + 4
      && AllSpace(line[..ls]) && line[ls..ls + 3] == UrlKey && AllSpace(line[ls + 3..e])
  {
  }

  /** Positions that satisfy the slug pattern's parts give a split. */
  lemma SlugSplitAt(line: string, ls: nat, e: nat, k: nat)
    requires ls + 3 <= e <= ls + 4 && e + 2 <= k && k + 1 < |line| - 4
    requires AllSpace(line[..ls]) && line[ls..ls + 3] == UrlKey && AllSpace(line[ls + 3..e]) && line[e] == '='
    requires line[k] == '/' && '/' !in line[k + 1..|line| - 4]
    requires !IsLineTerminator(line[|line| - 4]) && line[|line| - 3..] == GitSuffix
    ensures IsSlugLineSplit(line, line[..ls], line[ls + 3..e], line[e + 1..k], line[k + 1..|line| - 4], line[|line| - 4])
  {
    SlugLineEquation(line, ls, e, k);
  }

  /** The concatenation behind `SlugSplitAt`, kept apart from its quantified facts. */
  lemma SlugLineEquation(line: string, ls: nat, e: nat, k: nat)
    requires ls + 3 <= e && e + 2 <= k && k + 1 < |line| - 4
    requires line[ls..ls + 3] == UrlKey && line[e] == '=' && line[k] == '/' && line[|line| - 3..] == GitSuffix
    ensures line == line[..ls] + (UrlKey + (line[ls + 3..e] + (EqualsSign + (line[e + 1..k] + (Slash + (line[k + 1..|line| - 4] + ([line[|line| - 4]] + GitSuffix)))))))
  {
    SlugLineTail(line, k);
    SlugLineHead(line, ls, e, k, Slash + (line[k + 1..|line| - 4] + ([line[|line| - 4]] + GitSuffix)));
  }

  /** The line from its last `/` on: the slash, the slug, one character and `git`. */
  lemma SlugLineTail(line: string, k: nat)
    requires k + 1 < |line| - 4 && line[k] == '/' && line[|line| - 3..] == GitSuffix
    ensures line[k..] == Slash + (line[k + 1..|line| - 4] + ([line[|line| - 4]] + GitSuffix))
  {
    Prepend(line, |line| - 4, |line| - 3, [line[|line| - 4]], GitSuffix);
    var t0 := [line[|line| - 4]] + GitSuffix;
    Prepend(line, k + 1, |line| - 4, line[k + 1..|line| - 4], t0);
    var t1 := line[k + 1..|line| - 4] + t0;
    Prepend(line, k, k + 1, Slash, t1);
  }

  /** The line up to its last `/`: spaces, `url`, the separator, `=` and the run before the slash. */
  lemma SlugLineHead(line: string, ls: nat, e: nat, k: nat, t2: string)
    requires ls + 3 <= e && e + 2 <= k <= |line|
    requires line[ls..ls + 3] == UrlKey && line[e] == '=' && line[k..] == t2
    ensures line == line[..ls] + (UrlKey + (line[ls + 3..e] + (EqualsSign + (line[e + 1..k] + t2))))
  {
    Prepend(line, e + 1, k, line[e + 1..k], t2);
    var t3 := line[e + 1..k] + t2;
    Prepend(line, e, e + 1, EqualsSign, t3);
    var t4 := EqualsSign + t3;
    Prepend(line, ls + 3, e, line[ls + 3..e], t4);
    var t5 := line[ls + 3..e] + t4;
    Prepend(line, ls, ls + 3, UrlKey, t5);
    var t6 := UrlKey + t5;
    Prepend(line, 0, ls, line[..ls], t6);
    assert line[0..] == line;
    assert line == line[..ls] + t6;
  }

  /** `s[i..]` is `a + t` when `a` fills `s[i..j]` and `t` is the rest. */
  lemma Prepend(s: string, i: nat, j: nat, a: string, t: string)
    requires i <= j <= |s| && s[i..j] == a && s[j..] == t
    ensures s[i..] == a + t
  {
    assert s[i..] == s[i..j] + s[j..];
  }

  lemma SlugCaptureComplete(line: string, ws: string, sep: string, run: string, slug: string, c: char)
    requires IsSlugLineSplit(line, ws, sep, run, slug, c)
    ensures SlugCapture(line) == Some(slug)
  {
    var e, k := SlugSplitPositions(line, ws, sep, run, slug, c);
    SlugCaptureAt(line, e, k, slug);
  }

  /** Where a split line puts the `=`, the last `/` and the slug. */
  lemma SlugSplitPositions(line: string, ws: string, sep: string, run: string, slug: string, c: char)
    returns (e: nat, k: nat)
    requires IsSlugLineSplit(line, ws, sep, run, slug, c)
    ensures EqualsSignIndex(line) == Some(e)
    ensures |line| >= 4 && line[|line| - 3..] == GitSuffix && !IsLineTerminator(line[|line| - 4])
    ensures LastIndexOf(line[..|line| - 4], '/') == Some(k)
    ensures e + 2 <= k && k + 1 < |line| - 4
    ensures slug == line[k + 1..|line| - 4]
  {
    e := |ws| + 3 + |sep|;
    k := e + 1 + |run|;
    SlugSplitEquals(line, ws, sep, run, slug, c, e);
    SlugSplitLastSlash(line, ws, sep, run, slug, c, k);
    SlugSplitEnds(line, ws, sep, run, slug, c, k);
  }

  lemma SlugSplitLeadingSpaces(line: string, ws: string, sep: string, run: string, slug: string, c: char)
    requires IsSlugLineSplit(line, ws, sep, run, slug, c)
    ensures LeadingSpaces(line) == |ws|
  {
    var rest := UrlKey + (sep + (EqualsSign + (run + (Slash + (slug + ([c] + GitSuffix))))));
    LeadingSpacesOfPadded(ws, rest);
  }

  lemma SlugSplitEquals(line: string, ws: string, sep: string, run: string, slug: string, c: char, e: nat)
    requires IsSlugLineSplit(line, ws, sep, run, slug, c)
    requires e == |ws| + 3 + |sep|
    ensures EqualsSignIndex(line) == Some(e)
  {
    SlugSplitLeadingSpaces(line, ws, sep, run, slug, c);
  }

  lemma SlugSplitLastSlash(line: string, ws: string, sep: string, run: string, slug: string, c: char, k: nat)
    requires IsSlugLineSplit(line, ws, sep, run, slug, c)
    requires k == |ws| + 3 + |sep| + 1 + |run|
    ensures LastIndexOf(line[..|line| - 4], '/') == Some(k)
  {
    var head := ws + UrlKey + sep + "=" + run;
    assert line[..|line| - 4] == head + (['/'] + slug);
    LastIndexOfJoin(head, '/', slug);
  }

  lemma SlugSplitEnds(line: string, ws: string, sep: string, run: string, slug: string, c: char, k: nat)
    requires IsSlugLineSplit(line, ws, sep, run, slug, c)
    requires k == |ws| + 3 + |sep| + 1 + |run|
    ensures |line| == k + 1 + |slug| + 4
    ensures |ws| + 3 + |sep| + 2 <= k && k + 1 < |line| - 4
    ensures line[|line| - 3..] == GitSuffix && line[|line| - 4] == c && !IsLineTerminator(c)
    ensures line[k + 1..|line| - 4] == slug
  {
  }

  /** The matcher's result once its intermediate positions are known. */
  lemma SlugCaptureAt(line: string, e: nat, k: nat, slug: string)
    requires EqualsSignIndex(line) == Some(e)
    requires |line| >= 4 && line[|line| - 3..] == GitSuffix && !IsLineTerminator(line[|line| - 4])
    requires LastIndexOf(line[..|line| - 4], '/') == Some(k)
    requires e + 2 <= k && k + 1 < |line| - 4
    requires slug == line[k + 1..|line| - 4]
    ensures SlugCapture(line) == Some(slug)
  {
  }

  // ---------------------------------------------------------------------
  // EMAIL_TAG_PATTERN: \s*<email>([\d\D]+?)</email>\s*
  // ---------------------------------------------------------------------

  /** `line` reads as whitespace, `<email>`, a non-empty value `v`, `</email>`, whitespace. */
  ghost predicate IsEmailLineSplit(line: string, lead: string, v: string, trail: string) {
    && AllSpace(lead)
    && AllSpace(trail)
    && |v| > 0
    && line == lead + (EmailOpeningTag + (v + (EmailClosingTag + trail)))
  }

  /** Group 1 of the email pattern, or `None` when the line does not match as a whole. */
  function EmailCapture(line: string): Option<string> {
    EmailCaptureWithin(line, LeadingSpaces(line), TrailingSpaces(line))
  }

  /** The value between the tags once `ls` leading and `ts` trailing whitespace characters are set aside. */
  function EmailCaptureWithin(line: string, ls: nat, ts: nat): Option<string> {
    var b := ls + 7;
    var e: int := |line| - ts - 8;
    if b + 1 <= e && line[b - 7..b] == EmailOpeningTag && line[e..e + 8] == EmailClosingTag
    then Some(line[b..e])
    else None
  }

  /** The matcher captures `v` exactly when `line` splits with value `v`. */
  lemma EmailCaptureSpec(line: string, v: string)
    ensures EmailCapture(line) == Some(v) <==> exists lead, trail :: IsEmailLineSplit(line, lead, v, trail)
  {
    if EmailCapture(line) == Some(v) {
      var lead, trail := EmailCaptureSound(line);
    }
    if lead, trail :| IsEmailLineSplit(line, lead, v, trail) {
      EmailCaptureComplete(line, lead, v, trail);
    }
  }

  lemma EmailCaptureSound(line: string) returns (lead: string, trail: string)
    requires EmailCapture(line).Some?
    ensures IsEmailLineSplit(line, lead, EmailCapture(line).value, trail)
  {
    var n := |line|;
    var ls, ts := LeadingSpaces(line), TrailingSpaces(line);
    var b, e := ls + 7, n - ts - 8;
    lead, trail := line[..ls], line[n - ts..];
    var v := line[b..e];
    Prepend(line, e, n - ts, EmailClosingTag, trail);
    Prepend(line, b, e, v, EmailClosingTag + trail);
    Prepend(line, ls, b, EmailOpeningTag, v + (EmailClosingTag + trail));
    Prepend(line, 0, ls, lead, EmailOpeningTag + (v + (EmailClosingTag + trail)));
    assert line[0..] == line;
  }

  lemma EmailCaptureComplete(line: string, lead: string, v: string, trail: string)
    requires IsEmailLineSplit(line, lead, v, trail)
    ensures EmailCapture(line) == Some(v)
  {
    EmailSplitSpaces(line, lead, v, trail);
    EmailSplitParts(line, lead, v, trail);
    EmailCaptureAt(line, |lead|, |trail|, v);
  }

  /** The matcher's result once the surrounding whitespace and the tags are located. */
  lemma EmailCaptureAt(line: string, ls: nat, ts: nat, v: string)
    requires LeadingSpaces(line) == ls && TrailingSpaces(line) == ts
    requires |v| > 0 && |line| == ls + 15 + |v| + ts
    requires line[ls..ls + 7] == EmailOpeningTag && line[ls + 7..ls + 7 + |v|] == v
    requires line[ls + 7 + |v|..ls + 15 + |v|] == EmailClosingTag
    ensures EmailCapture(line) == Some(v)
  {
    EmailCaptureWithinAt(line, ls, ts, v);
  }

  lemma EmailCaptureWithinAt(line: string, ls: nat, ts: nat, v: string)
    requires |v| > 0 && |line| == ls + 15 + |v| + ts
    requires line[ls..ls + 7] == EmailOpeningTag && line[ls + 7..ls + 7 + |v|] == v
    requires line[ls + 7 + |v|..ls + 15 + |v|] == EmailClosingTag
    ensures EmailCaptureWithin(line, ls, ts) == Some(v)
  {
    var b, e := ls + 7, |line| - ts - 8;
    assert e == ls + 7 + |v| && b + 1 <= e;
  }

  lemma EmailSplitSpaces(line: string, lead: string, v: string, trail: string)
    requires IsEmailLineSplit(line, lead, v, trail)
    ensures LeadingSpaces(line) == |lead| && TrailingSpaces(line) == |trail|
  {
    var afterLead := EmailOpeningTag + (v + (EmailClosingTag + trail));
    assert line == lead + afterLead;
    LeadingSpacesOfPadded(lead, afterLead);
    var beforeTrail := lead + EmailOpeningTag + v + EmailClosingTag;
    assert line == beforeTrail + trail;
    TrailingSpacesOfPadded(beforeTrail, trail);
  }

  lemma EmailSplitParts(line: string, lead: string, v: string, trail: string)
    requires IsEmailLineSplit(line, lead, v, trail)
    ensures line[|lead|..|lead| + 7] == EmailOpeningTag
    ensures line[|lead| + 7..|lead| + 7 + |v|] == v
    ensures line[|lead| + 7 + |v|..|lead| + 15 + |v|] == EmailClosingTag
    ensures |line| == |lead| + 15 + |v| + |trail|
  {
  }

  // ---------------------------------------------------------------------
  // Consequences and examples
  // ---------------------------------------------------------------------

  /** An ssh remote URL yields the repository slug between the last `/` and `.git`. */
  lemma SlugCaptureExample()
    ensures SlugCapture(ExampleRemoteLine) == Some("my-harvester")
  {
    ExampleRemoteLineSplit();
    SlugCaptureComplete(ExampleRemoteLine, "", " ", " ssh://git@host/proj", "my-harvester", '.');
  }

  /** The remote line `url = ssh://git@host/proj/my-harvester.git`, written in its parts. */
  const ExampleRemoteLine := UrlKey + (" " + (EqualsSign + (" ssh://git@host/proj" + (Slash + ("my-harvester" + (".git"))))))

  lemma ExampleRemoteLineSplit()
    ensures IsSlugLineSplit(ExampleRemoteLine, "", " ", " ssh://git@host/proj", "my-harvester", '.')
  {
    ExampleRemoteLineParts();
    assert AllSpace(" ");
    assert '/' !in "my-harvester";
  }

  lemma ExampleRemoteLineParts()
    ensures ExampleRemoteLine
         == "" + (UrlKey + (" " + (EqualsSign + (" ssh://git@host/proj" + (Slash + ("my-harvester" + (['.'] + GitSuffix)))))))
  {
    assert "" + ExampleRemoteLine == ExampleRemoteLine;
  }

  /** A line that ends in whitespace, such as a trailing blank after `.git`, never matches. */
  lemma SlugRejectsTrailingSpace(line: string)
    requires |line| > 0 && IsSpace(line[|line| - 1])
    ensures SlugCapture(line).None?
  {
  }

  /** Two or more whitespace characters between `url` and `=` make the line not match. */
  lemma SlugRejectsTwoSpaces(ws: string, a: char, b: char, rest: string)
    requires AllSpace(ws) && IsSpace(a) && IsSpace(b)
    ensures SlugCapture(ws + (UrlKey + ([a, b] + rest))).None?
  {
    var line := ws + (UrlKey + ([a, b] + rest));
    LeadingSpacesOfPadded(ws, UrlKey + ([a, b] + rest));
    assert line[|ws|..|ws| + 3] == UrlKey;
    assert line[|ws| + 3] == a && line[|ws| + 4] == b;
  }

  /** A line with text after the closing e-mail tag yields no value. */
  lemma EmailRejectsTrailingText(line: string)
    requires |line| > 0 && line[|line| - 1] != '>' && !IsSpace(line[|line| - 1])
    ensures EmailCapture(line).None?
  {
  }

  /** An indented e-mail element yields its value. */
  lemma EmailCaptureExample()
    ensures EmailCapture("    <email>jane@example.org</email>") == Some("jane@example.org")
  {
    assert IsEmailLineSplit("    <email>jane@example.org</email>", "    ", "jane@example.org", "");
    EmailCaptureComplete("    <email>jane@example.org</email>", "    ", "jane@example.org", "");
  }
}

=== FILE: plan.dfy ===
/**
 * `HarvesterPlan` of the plans generator: the static-analysis plan of one
 * harvester and the documents its `publish` sends.
 */
module HarvesterPlan {
  import opened Wrappers
  import opened Bamboo
  import opened PlanConstants

  /** The one job of the plan. */
  const StaticAnalysisJob := Job(
    DefaultJob,
    DefaultJobKey,
    [CheckoutHarvesterRepoTask, CheckoutBambooScriptsRepoTask, MavenInstallStrictTask,
     PrepareVersionVariablesTask, ExportVersionVariablesTask],
    [Declared(WarArtifact), Declared(DockerfileArtifact), UtilScriptArtifact, Declared(ScriptArtifacts)])

  /** The `HarvesterPlan` constructor. */
  function Create(harvesterRepository: Repository, bambooKey: string, providerClassName: string): (p: Plan)
    ensures AnalysisPlanName.Unfill(p.name) == Some(providerClassName)
    ensures Identifier(p) == PlanIdentifier(AnalysisProjectKey, bambooKey)
    ensures p.repositories == [harvesterRepository, BambooScriptsRepository]
    ensures p.triggers == [SelectedRepositoriesTrigger([harvesterRepository.name])]
  {
    UnfillFill(AnalysisPlanName, providerClassName);
    Plan(
      AnalysisProjectKey,
      AnalysisPlanName.Fill(providerClassName),
      bambooKey,
      AnalysisPlanDescription.Fill(providerClassName),
      MaximumConcurrentBuilds,
      [harvesterRepository, BambooScriptsRepository],
      [SelectedRepositoriesTrigger([harvesterRepository.name])],
      [Stage(DefaultJobStage, [StaticAnalysisJob])],
      RemovePlanBranchAfterOneDay)
  }

  /**
   * The plan's layout: a description naming the provider, at most ten
   * concurrent builds, one stage `Default Stage` holding one job `JOB1`
   * whose tasks are, in order, the two checkouts, the strict Maven build,
   * the preparation and the export of the version variables; whose
   * artifacts are, in order, the war file, the Dockerfile, the utility
   * script slot and the scripts; and the one-day branch clean-up.
   */
  lemma CreateLayout(harvesterRepository: Repository, bambooKey: string, providerClassName: string)
    ensures var p := Create(harvesterRepository, bambooKey, providerClassName);
            && AnalysisPlanDescription.Unfill(p.description) == Some(providerClassName)
            && p.concurrentBuilds == ConcurrentBuilds(false, 10)
            && SingleJob(p)
            && p.stages[0].name == "Default Stage"
            && p.stages[0].jobs[0].key == "JOB1"
            && p.stages[0].jobs[0].name == "Static Analysis Job"
            && p.stages[0].jobs[0].tasks
               == [CheckoutHarvesterRepoTask, CheckoutBambooScriptsRepoTask, MavenInstallStrictTask,
                   PrepareVersionVariablesTask, ExportVersionVariablesTask]
            && p.stages[0].jobs[0].artifacts
               == [Declared(WarArtifact), Declared(DockerfileArtifact), UtilScriptArtifact, Declared(ScriptArtifacts)]
            && p.branchManagement.createForVcsBranch
            && p.branchManagement.deleteAfterDays == Some(1)
            && p.branchManagement.notifyCommitters
  {
    UnfillFill(AnalysisPlanDescription, providerClassName);
  }

  // ---------------------------------------------------------------------
  // Structural invariants of a plan
  // ---------------------------------------------------------------------

  predicate SingleJob(p: Plan) {
    |p.stages| == 1 && |p.stages[0].jobs| == 1
  }

  /** The checkout items of a task list, in task order. */
  function CheckoutItems(tasks: seq<Task>): (items: seq<CheckoutItem>)
    ensures forall t :: t in tasks && t.VcsCheckout? ==> forall c :: c in t.items ==> c in items
    ensures forall c :: c in items ==> exists t :: t in tasks && t.VcsCheckout? && c in t.items
  {
    if |tasks| == 0 then []
    else (if tasks[0].VcsCheckout? then tasks[0].items else []) + CheckoutItems(tasks[1..])
  }

  /** A checkout reference names the plan's first repository, or a later one by name. */
  predicate Resolves(p: Plan, r: RepositoryRef) {
    match r
    case DefaultRepository => |p.repositories| > 0
    case RepositoryNamed(n) => exists i :: 0 < i < |p.repositories| && p.repositories[i].name == n
  }

  predicate IsCheckoutPath(items: seq<CheckoutItem>, d: string) {
    exists i :: 0 <= i < |items| && items[i].path == d
  }

  /** Repositories have distinct names, and the triggers watch only plan repositories. */
  predicate RepositoriesConsistent(p: Plan) {
    && (forall i, j :: 0 <= i < j < |p.repositories| ==> p.repositories[i].name != p.repositories[j].name)
    && (forall t, n :: t in p.triggers && n in t.repositories ==>
          exists i :: 0 <= i < |p.repositories| && p.repositories[i].name == n)
  }

  /** Checkouts come first, resolve to plan repositories, and use distinct directories; Maven runs inside one. */
  predicate CheckoutsConsistent(p: Plan, tasks: seq<Task>) {
    var items := CheckoutItems(tasks);
    && (forall i, j :: 0 <= i < j < |tasks| && tasks[j].VcsCheckout? ==> tasks[i].VcsCheckout?)
    && (forall c :: c in items ==> Resolves(p, c.repository))
    && (forall i, j :: 0 <= i < j < |items| ==> items[i].path != items[j].path)
    && (forall t :: t in tasks && t.Maven? && t.workingSubdirectory.Some? ==>
          IsCheckoutPath(items, t.workingSubdirectory.value))
  }

  /** Every defined artifact is shared and is taken from a checkout directory. */
  predicate ArtifactsConsistent(items: seq<CheckoutItem>, arts: seq<ArtifactSlot>) {
    && (forall s :: s in arts && s.Declared? ==> s.artifact.shared)
    && (forall s :: s in arts && s.Declared? && s.artifact.location.Some? ==>
          IsCheckoutPath(items, s.artifact.location.value))
    && (forall s :: s in arts && s.Declared? && s.artifact.location.None? ==>
          exists i :: 0 <= i < |items| && |items[i].path| < |s.artifact.copyPattern| &&
                      s.artifact.copyPattern[..|items[i].path| + 1] == items[i].path + "/")
  }

  /** Every exported variable file is named, quoted, as the last argument of an earlier script. */
  predicate VariablesPrepared(tasks: seq<Task>) {
    forall j :: 0 <= j < |tasks| && tasks[j].InjectVariables? ==>
      exists i :: 0 <= i < j && tasks[i].ScriptFile? &&
                  |Quote(tasks[j].path)| <= |tasks[i].argument| &&
                  tasks[i].argument[|tasks[i].argument| - |Quote(tasks[j].path)|..] == Quote(tasks[j].path)
  }

  /** The invariants a harvester plan keeps: one job, consistent repositories, checkouts, artifacts and variables. */
  predicate WellFormed(p: Plan) {
    && SingleJob(p)
    && RepositoriesConsistent(p)
    && CheckoutsConsistent(p, p.stages[0].jobs[0].tasks)
    && ArtifactsConsistent(CheckoutItems(p.stages[0].jobs[0].tasks), p.stages[0].jobs[0].artifacts)
    && VariablesPrepared(p.stages[0].jobs[0].tasks)
  }

  lemma JobCheckoutItems()
    ensures CheckoutItems(StaticAnalysisJob.tasks)
         == [CheckoutItem(DefaultRepository, HarvesterWorkingDir),
             CheckoutItem(RepositoryNamed(BambooScriptsRepository.name), BambooScriptsWorkingDir)]
  {
    var t := StaticAnalysisJob.tasks;
    assert t[4..][1..] == [];
    assert CheckoutItems(t[4..]) == [];
    assert t[3..][1..] == t[4..];
    assert CheckoutItems(t[3..]) == [];
    assert t[2..][1..] == t[3..];
    assert CheckoutItems(t[2..]) == [];
    assert t[1..][1..] == t[2..];
    assert CheckoutItems(t[1..]) == CheckoutBambooScriptsRepoTask.items;
    assert CheckoutItems(t) == CheckoutHarvesterRepoTask.items + CheckoutBambooScriptsRepoTask.items;
  }

  lemma JobCheckoutsConsistent(p: Plan)
    requires |p.repositories| == 2 && p.repositories[1] == BambooScriptsRepository
    ensures CheckoutsConsistent(p, StaticAnalysisJob.tasks)
  {
    JobCheckoutItems();
    JobCheckoutsFirst();
    JobCheckoutsResolve(p);
    JobCheckoutPathsDistinct();
    JobMavenInCheckout();
  }

  lemma JobCheckoutsFirst()
    ensures var tasks := StaticAnalysisJob.tasks;
            forall i, j :: 0 <= i < j < |tasks| && tasks[j].VcsCheckout? ==> tasks[i].VcsCheckout?
  {
    var tasks := StaticAnalysisJob.tasks;
    assert tasks[0].VcsCheckout? && tasks[1].VcsCheckout?;
    assert !tasks[2].VcsCheckout? && !tasks[3].VcsCheckout? && !tasks[4].VcsCheckout?;
  }

  lemma JobCheckoutsResolve(p: Plan)
    requires |p.repositories| == 2 && p.repositories[1] == BambooScriptsRepository
    ensures forall c :: c in CheckoutItems(StaticAnalysisJob.tasks) ==> Resolves(p, c.repository)
  {
    JobCheckoutItems();
    assert p.repositories[1].name == BambooScriptsRepository.name;
  }

  lemma JobCheckoutPathsDistinct()
    ensures var items := CheckoutItems(StaticAnalysisJob.tasks);
            forall i, j :: 0 <= i < j < |items| ==> items[i].path != items[j].path
  {
    JobCheckoutItems();
  }

  lemma JobMavenInCheckout()
    ensures forall t :: t in StaticAnalysisJob.tasks && t.Maven? && t.workingSubdirectory.Some? ==>
              IsCheckoutPath(CheckoutItems(StaticAnalysisJob.tasks), t.workingSubdirectory.value)
  {
    JobCheckoutItems();
    var items := CheckoutItems(StaticAnalysisJob.tasks);
    assert items[0].path == HarvesterWorkingDir;
  }

  lemma JobArtifactsConsistent()
    ensures ArtifactsConsistent(CheckoutItems(StaticAnalysisJob.tasks), StaticAnalysisJob.artifacts)
  {
    JobArtifactsShared();
    JobArtifactsLocated();
    JobArtifactsUnderCheckout();
  }

  lemma JobArtifactsShared()
    ensures forall s :: s in StaticAnalysisJob.artifacts && s.Declared? ==> s.artifact.shared
  {
  }

  lemma JobArtifactsLocated()
    ensures forall s :: s in StaticAnalysisJob.artifacts && s.Declared? && s.artifact.location.Some? ==>
              IsCheckoutPath(CheckoutItems(StaticAnalysisJob.tasks), s.artifact.location.value)
  {
    JobCheckoutItems();
    var items := CheckoutItems(StaticAnalysisJob.tasks);
    assert items[0].path == HarvesterWorkingDir;
  }

  lemma JobArtifactsUnderCheckout()
    ensures var items := CheckoutItems(StaticAnalysisJob.tasks);
            forall s :: s in StaticAnalysisJob.artifacts && s.Declared? && s.artifact.location.None? ==>
              exists i :: 0 <= i < |items| && |items[i].path| < |s.artifact.copyPattern| &&
                          s.artifact.copyPattern[..|items[i].path| + 1] == items[i].path + "/"
  {
    JobCheckoutItems();
    var items := CheckoutItems(StaticAnalysisJob.tasks);
    assert ScriptArtifacts.copyPattern[..|items[1].path| + 1] == items[1].path + "/";
  }

  lemma JobVariablesPrepared()
    ensures VariablesPrepared(StaticAnalysisJob.tasks)
  {
    var tasks := StaticAnalysisJob.tasks;
    var q := Quote(VersionVariableFile);
    var arg := PrepareVersionVariablesArgument;
    assert arg[|arg| - |q|..] == q;
    assert tasks[3].argument == arg && tasks[4].path == VersionVariableFile;
  }

  /** Every plan built for a harvester repository not named like the scripts repository is well formed. */
  lemma CreateWellFormed(harvesterRepository: Repository, bambooKey: string, providerClassName: string)
    requires harvesterRepository.name != BambooScriptsRepository.name
    ensures WellFormed(Create(harvesterRepository, bambooKey, providerClassName))
  {
    var p := Create(harvesterRepository, bambooKey, providerClassName);
    assert SingleJob(p) && p.stages[0].jobs[0] == StaticAnalysisJob;
    PlanRepositoriesConsistent(p);
    JobCheckoutsConsistent(p);
    JobArtifactsConsistent();
    JobVariablesPrepared();
  }

  lemma PlanRepositoriesConsistent(p: Plan)
    requires |p.repositories| == 2 && p.repositories[1] == BambooScriptsRepository
    requires p.repositories[0].name != BambooScriptsRepository.name
    requires p.triggers == [SelectedRepositoriesTrigger([p.repositories[0].name])]
    ensures RepositoriesConsistent(p)
  {
  }

  // ---------------------------------------------------------------------
  // publish
  // ---------------------------------------------------------------------

  /** The rights one developer receives on the plan. */
  function DeveloperPermissions(dev: string): (perm: Permissions)
    ensures perm.user == dev
    ensures Edit !in perm.userRights && Build !in perm.userRights && Admin !in perm.userRights
  {
    Permissions(dev, {View, Clone}, {View}, true)
  }

  /** One plan permission document per developer, in list order. */
  function PermissionTrace(id: PlanIdentifier, devs: seq<string>): (r: seq<Document>)
    ensures |r| == |devs|
    ensures forall i :: 0 <= i < |r| ==> r[i] == PlanPermissionsDocument(id, DeveloperPermissions(devs[i]))
  {
    if |devs| == 0 then []
    else [PlanPermissionsDocument(id, DeveloperPermissions(devs[0]))] + PermissionTrace(id, devs[1..])
  }

  /** `publish`: the documents sent to the server, in order. */
  function Publish(p: Plan, devs: seq<string>): (trace: seq<Document>)
    ensures |trace| == 1 + |devs|
    ensures trace[0] == PlanDocument(p)
  {
    [PlanDocument(p)] + PermissionTrace(Identifier(p), devs)
  }

  /** Picks the plan permission documents of a trace. */
  predicate IsPlanPermissions(d: Document) {
    d.PlanPermissionsDocument?
  }

  lemma {:induction false} PermissionTraceGrantees(id: PlanIdentifier, devs: seq<string>)
    ensures Grantees(PermissionTrace(id, devs), IsPlanPermissions) == devs
    decreases |devs|
  {
    if |devs| > 0 {
      var r := PermissionTrace(id, devs);
      assert r == [r[0]] + PermissionTrace(id, devs[1..]);
      GranteesAppend([r[0]], PermissionTrace(id, devs[1..]), IsPlanPermissions);
      PermissionTraceGrantees(id, devs[1..]);
      assert [r[0]][1..] == [];
    }
  }

  /** Every developer is granted permissions exactly once, in list order, and nobody else is. */
  lemma PublishGrantsEachDeveloper(p: Plan, devs: seq<string>)
    ensures Grantees(Publish(p, devs), IsPlanPermissions) == devs
  {
    GranteesAppend([PlanDocument(p)], PermissionTrace(Identifier(p), devs), IsPlanPermissions);
    PermissionTraceGrantees(Identifier(p), devs);
    assert [PlanDocument(p)][1..] == [];
  }

  /**
   * The plan is sent first and only once; every later document is a
   * permission document for that plan giving its developer exactly view and
   * clone, logged-in users view, and anonymous users view.
   */
  lemma PublishShape(p: Plan, devs: seq<string>)
    ensures forall i :: 0 <= i < |Publish(p, devs)| ==> (Publish(p, devs)[i].PlanDocument? <==> i == 0)
    ensures forall i :: 1 <= i < |Publish(p, devs)| ==>
              var d := Publish(p, devs)[i];
              && d.PlanPermissionsDocument?
              && d.planId == Identifier(p)
              && d.permissions.userRights == {View, Clone}
              && d.permissions.loggedInRights == {View}
              && d.permissions.anonymousView
  {
    var trace := Publish(p, devs);
    assert forall i :: 1 <= i < |trace| ==> trace[i] == PermissionTrace(Identifier(p), devs)[i - 1];
  }
}

=== FILE: plan_constants.dfy ===
/**
 * The constant tables of the plans generator: `RepositoryConstants`,
 * `ArtifactConstants` and `BambooConstants`.
 */
module PlanConstants {
  import opened Wrappers
  import opened Bamboo

  // ---------------------------------------------------------------------
  // RepositoryConstants
  // ---------------------------------------------------------------------

  const GitMasterBranch := "master"
  const HarvesterRepositoryName := Template("", "-Harvester")
  const HarvesterWorkingDir := "sourceCode"
  const BambooScriptsWorkingDir := "scripts"
  const BitbucketHarvesterProject := "HAR"

  const BambooScriptsRepository :=
    Repository("BambooScripts", "UTILS", "bamboo-scripts", GitMasterBranch, None, None, None)

  const CheckoutHarvesterRepoTask :=
    VcsCheckout("Checkout Harvester", [CheckoutItem(DefaultRepository, HarvesterWorkingDir)])

  const CheckoutBambooScriptsRepoTask :=
    VcsCheckout("Checkout Bamboo Scripts",
                [CheckoutItem(RepositoryNamed(BambooScriptsRepository.name), BambooScriptsWorkingDir)])

  // ---------------------------------------------------------------------
  // ArtifactConstants
  // ---------------------------------------------------------------------

  const ScriptsPattern := BambooScriptsWorkingDir + "/**/*"
  const WarArtifact := Artifact("warFile", "target/*.war", Some(HarvesterWorkingDir), true)
  const DockerfileArtifact := Artifact("dockerfile", "Dockerfile", Some(HarvesterWorkingDir), true)
  const ScriptArtifacts := Artifact("scripts", ScriptsPattern, None, true)

  /** Used by the plan, but not declared in the plans generator's `ArtifactConstants.java`. */
  const UtilScriptArtifact := Unresolved("UTIL_SCRIPT_ARTIFACT")

  // ---------------------------------------------------------------------
  // BambooConstants
  // ---------------------------------------------------------------------

  const VersionVariableFile := "injectedVersions.ini"
  const VariableInjectionNamespace := "inject"

  const RemovePlanBranchAfterOneDay := BranchManagement(true, Some(1), true)

  const DefaultJob := "Static Analysis Job"
  const DefaultJobKey := "JOB1"
  const DefaultJobStage := "Default Stage"

  const AnalysisPlanName := Template("", "-Harvester Static Analysis")
  const AnalysisPlanDescription := Template("Static Analysis of the ", "-Harvester.")
  const AnalysisProjectKey := "CA"

  const MaximumConcurrentBuilds := ConcurrentBuilds(false, 10)

  /** `"\"" + s + "\""`, one quoted script argument. */
  function Quote(s: string): (r: string)
    ensures |r| == |s| + 2 && r[0] == '"' && r[|r| - 1] == '"' && r[1..|r| - 1] == s
  {
    "\"" + s + "\""
  }

  /** The inverse of `Quote`. */
  function Unquote(r: string): (s: Option<string>)
    ensures s.Some? ==> Quote(s.value) == r
  {
    if |r| >= 2 && r[0] == '"' && r[|r| - 1] == '"' then Some(r[1..|r| - 1]) else None
  }

  lemma UnquoteQuote(s: string)
    ensures Unquote(Quote(s)) == Some(s)
  {
  }

  /** The prepare script is told: source directory, target directory, variable file. */
  const PrepareVersionVariablesArgument :=
    Quote(HarvesterWorkingDir) + " " + Quote(HarvesterWorkingDir) + " " + Quote(VersionVariableFile)

  const PrepareVersionVariablesTask :=
    ScriptFile("Prepare Export of Version Variables",
               BambooScriptsWorkingDir + "/plans/codeAnalysis/exportVersionVariables.sh",
               PrepareVersionVariablesArgument)

  const ExportVersionVariablesTask :=
    InjectVariables("Export Version Variables", VersionVariableFile, VariableInjectionNamespace, ResultScope)

  const MavenInstallStrictTask :=
    Maven("Code Analysis", "clean install -Dcheck=strict", "JDK 1.8", "Maven 3", true, Some(HarvesterWorkingDir), true)

  // ---------------------------------------------------------------------
  // Facts about the tables
  // ---------------------------------------------------------------------

  /** The two checkouts use different directories. */
  lemma WorkingDirectoriesDistinct()
    ensures HarvesterWorkingDir != BambooScriptsWorkingDir
    ensures CheckoutHarvesterRepoTask.items[0].path != CheckoutBambooScriptsRepoTask.items[0].path
  {
  }

  /** Every defined artifact is shared, and their names are pairwise distinct. */
  lemma ArtifactsSharedAndDistinct()
    ensures WarArtifact.shared && DockerfileArtifact.shared && ScriptArtifacts.shared
    ensures WarArtifact.name != DockerfileArtifact.name
    ensures WarArtifact.name != ScriptArtifacts.name
    ensures DockerfileArtifact.name != ScriptArtifacts.name
  {
  }

  /** The last argument of the prepare script, unquoted, is the file the export task reads. */
  lemma PrepareWritesExportedFile()
    ensures var arg := PrepareVersionVariablesTask.argument;
            var q := Quote(ExportVersionVariablesTask.path);
            |q| <= |arg| && arg[|arg| - |q|..] == q
  {
  }

  /** The scripts artifact is the scripts checkout directory, copied recursively. */
  lemma ScriptsArtifactCoversScriptsCheckout()
    ensures ScriptArtifacts.location.None?
    ensures ScriptArtifacts.copyPattern[..|BambooScriptsWorkingDir|] == CheckoutBambooScriptsRepoTask.items[0].path
  {
  }
}

=== FILE: project_utils.dfy ===
/**
 * The metadata resolvers of `ProjectUtils`, with their I/O replaced by its
 * outcome: a directory listing with readable or unreadable creation times,
 * the lines of `pom.xml` and `.git/config` (or `None` when they cannot be
 * read), the first output line of `git rev-parse --show-toplevel`, and the
 * `user.dir` property.
 */
module ProjectUtils {
  import opened Wrappers
  import opened Text
  import opened Patterns

  // ---------------------------------------------------------------------
  // Provider class name: the oldest *Harvester.java file
  // ---------------------------------------------------------------------

  const LongMin := -0x8000_0000_0000_0000
  const LongMax := 0x7FFF_FFFF_FFFF_FFFF

  /** A Java `long` of milliseconds, as returned by `FileTime.toMillis()`. */
  type Millis = t: int | LongMin <= t <= LongMax

  /** One listed file; `creationTime` is `None` when reading its attributes throws an `IOException`. */
  datatype HarvesterFile = HarvesterFile(name: string, creationTime: Option<Millis>)

  /** The harvester source directory as `File.listFiles` sees it. */
  datatype HarvesterDirectory =
    | Missing                              // does not exist, or is not a directory
    | Unlistable                           // listing threw or returned null
    | Listed(files: seq<HarvesterFile>)    // the filtered listing, in listing order

  /** The file has a readable creation time strictly below `bound`. */
  predicate ReadableBelow(f: HarvesterFile, bound: int) {
    f.creationTime.Some? && f.creationTime.value < bound
  }

  ghost predicate NoneBelow(files: seq<HarvesterFile>, bound: int) {
    forall j :: 0 <= j < |files| ==> !ReadableBelow(files[j], bound)
  }

  /**
   * `files[i]` is the file the scan keeps: readable and below `bound`,
   * strictly older than every earlier readable file, and no younger than
   * any later one (a tie goes to the earlier file).
   */
  ghost predicate IsOldestBelow(files: seq<HarvesterFile>, i: int, bound: int) {
    && 0 <= i < |files|
    && ReadableBelow(files[i], bound)
    && (forall j :: 0 <= j < i && files[j].creationTime.Some? ==>
          files[j].creationTime.value > files[i].creationTime.value)
    && (forall j :: i < j < |files| && files[j].creationTime.Some? ==>
          files[j].creationTime.value >= files[i].creationTime.value)
  }

  /** The scan loop: keep the first file whose time is below the oldest time seen so far. */
  function OldestAmong(files: seq<HarvesterFile>, oldestTime: int, oldest: Option<HarvesterFile>): Option<HarvesterFile>
    decreases |files|
  {
    if |files| == 0 then oldest
    else if ReadableBelow(files[0], oldestTime) then
      OldestAmong(files[1..], files[0].creationTime.value, Some(files[0]))
    else
      OldestAmong(files[1..], oldestTime, oldest)
  }

  /** The scan as the source starts it: from `Long.MAX_VALUE` with no file. */
  function OldestHarvesterFile(files: seq<HarvesterFile>): Option<HarvesterFile> {
    OldestAmong(files, LongMax, None)
  }

  /** `getProviderClassName` of the archived generator. */
  function ProviderClassName(dir: HarvesterDirectory): Option<string> {
    match dir
    case Missing => None
    case Unlistable => None
    case Listed(files) =>
      match OldestHarvesterFile(files)
      case None => None
      case Some(f) => HarvesterFileCapture(f.name)
  }

  /** The scan result is the unique first oldest file, or the starting value when no file is below the bound. */
  lemma {:induction false} OldestAmongSpec(files: seq<HarvesterFile>, bound: int, oldest: Option<HarvesterFile>)
    returns (chosen: Option<nat>)
    ensures chosen.None? ==> NoneBelow(files, bound) && OldestAmong(files, bound, oldest) == oldest
    ensures chosen.Some? ==>
              IsOldestBelow(files, chosen.value, bound) && OldestAmong(files, bound, oldest) == Some(files[chosen.value])
    decreases |files|
  {
    if |files| == 0 {
      return None;
    }
    var rest := files[1..];
    var f := files[0];
    if ReadableBelow(f, bound) {
      var t := f.creationTime.value;
      var sub := OldestAmongSpec(rest, t, Some(f));
      if sub.None? {
        chosen := Some(0);
        assert forall j :: 0 < j < |files| ==> files[j] == rest[j - 1];
      } else {
        chosen := Some(sub.value + 1);
        assert forall j :: 0 < j < |files| ==> files[j] == rest[j - 1];
      }
    } else {
      var sub := OldestAmongSpec(rest, bound, oldest);
      assert forall j :: 0 < j < |files| ==> files[j] == rest[j - 1];
      if sub.None? {
        chosen := None;
      } else {
        chosen := Some(sub.value + 1);
      }
    }
  }

  /** At most one index is the first oldest file. */
  lemma OldestBelowUnique(files: seq<HarvesterFile>, i: int, j: int, bound: int)
    requires IsOldestBelow(files, i, bound) && IsOldestBelow(files, j, bound)
    ensures i == j
  {
  }

  /**
   * The scan finds nothing exactly when no file has a readable time below
   * `Long.MAX_VALUE`; otherwise it finds the first file with the smallest
   * readable time. A file stamped `Long.MAX_VALUE` is never chosen.
   */
  lemma OldestHarvesterFileSpec(files: seq<HarvesterFile>)
    ensures OldestHarvesterFile(files).None? <==> NoneBelow(files, LongMax)
    ensures forall i :: IsOldestBelow(files, i, LongMax) ==> OldestHarvesterFile(files) == Some(files[i])
    ensures OldestHarvesterFile(files).Some? ==> exists i :: IsOldestBelow(files, i, LongMax)
  {
    var chosen := OldestAmongSpec(files, LongMax, None);
    forall i | IsOldestBelow(files, i, LongMax)
      ensures OldestHarvesterFile(files) == Some(files[i])
    {
      if chosen.Some? {
        OldestBelowUnique(files, i, chosen.value, LongMax);
      }
    }
  }

  /** The files whose creation time could be read, in listing order. */
  function Readable(files: seq<HarvesterFile>): (r: seq<HarvesterFile>)
    ensures forall j :: 0 <= j < |r| ==> r[j].creationTime.Some?
  {
    if |files| == 0 then []
    else if files[0].creationTime.Some? then [files[0]] + Readable(files[1..])
    else Readable(files[1..])
  }

  /** Files whose attributes cannot be read do not influence the choice. */
  lemma {:induction false} UnreadableFilesIgnored(files: seq<HarvesterFile>, bound: int, oldest: Option<HarvesterFile>)
    ensures OldestAmong(files, bound, oldest) == OldestAmong(Readable(files), bound, oldest)
    decreases |files|
  {
    if |files| > 0 {
      if files[0].creationTime.Some? {
        var r := Readable(files);
        assert r[0] == files[0] && r[1..] == Readable(files[1..]);
        if ReadableBelow(files[0], bound) {
          UnreadableFilesIgnored(files[1..], files[0].creationTime.value, Some(files[0]));
        } else {
          UnreadableFilesIgnored(files[1..], bound, oldest);
        }
      } else {
        UnreadableFilesIgnored(files[1..], bound, oldest);
      }
    }
  }

  /**
   * The provider name is absent for a missing or unlistable directory and
   * when no file has a usable creation time; otherwise it is group 1 of the
   * harvester pattern on the first oldest file, absent if that name does not match.
   */
  lemma ProviderClassNameSpec(dir: HarvesterDirectory)
    ensures (dir.Missing? || dir.Unlistable?) ==> ProviderClassName(dir).None?
    ensures dir.Listed? && NoneBelow(dir.files, LongMax) ==> ProviderClassName(dir).None?
    ensures dir.Listed? ==> forall i :: IsOldestBelow(dir.files, i, LongMax) ==>
              ProviderClassName(dir) == HarvesterFileCapture(dir.files[i].name)
    ensures ProviderClassName(dir) == ProviderClassName(if dir.Listed? then Listed(Readable(dir.files)) else dir)
  {
    if dir.Listed? {
      OldestHarvesterFileSpec(dir.files);
      UnreadableFilesIgnored(dir.files, LongMax, None);
    }
  }

  /** The oldest of `FooHarvester.java` and `BarHarvester.java` names the provider `Foo`. */
  lemma ProviderClassNameExample()
    ensures ProviderClassName(Listed([HarvesterFile("FooHarvester.java", Some(1)),
                                      HarvesterFile("BarHarvester.java", Some(2))])) == Some("Foo")
  {
    var files := [HarvesterFile("FooHarvester.java", Some(1)), HarvesterFile("BarHarvester.java", Some(2))];
    assert files[1..] == [files[1]];
    assert OldestHarvesterFile(files) == Some(files[0]);
    HarvesterFileCaptureSpec("FooHarvester.java", "Foo");
    ExampleFileSplit();
  }

  lemma ExampleFileSplit()
    ensures IsHarvesterFileSplit("FooHarvester.java", "Foo", '.')
  {
    assert "FooHarvester.java" == "Foo" + HarvesterInfix + ['.'] + JavaSuffix;
  }

  // ---------------------------------------------------------------------
  // Developer e-mail addresses: a two-phase scan of pom.xml
  // ---------------------------------------------------------------------

  const DevelopersOpeningTag := "<developers>"
  const DevelopersClosingTag := "</developers>"

  /** The index of the first line at or after `from` that contains `tag`, or `|lines|`. */
  function FirstContaining(lines: seq<string>, tag: string, from: nat): (r: nat)
    requires from <= |lines|
    ensures from <= r <= |lines|
    ensures forall j :: from <= j < r ==> !Contains(lines[j], tag)
    ensures r < |lines| ==> Contains(lines[r], tag)
    decreases |lines| - from
  {
    if from == |lines| then from
    else if Contains(lines[from], tag) then from
    else FirstContaining(lines, tag, from + 1)
  }

  /** Any index with the first-occurrence property is the one the search finds. */
  lemma FirstContainingUnique(lines: seq<string>, tag: string, from: nat, r: nat)
    requires from <= r <= |lines|
    requires forall j :: from <= j < r ==> !Contains(lines[j], tag)
    requires r < |lines| ==> Contains(lines[r], tag)
    ensures FirstContaining(lines, tag, from) == r
  {
  }

  /** The captures of the lines that `capture` accepts, in line order. */
  function Captures(block: seq<string>, capture: string -> Option<string>): (r: seq<string>)
    ensures |r| <= |block|
  {
    if |block| == 0 then []
    else if capture(block[0]).Some? then [capture(block[0]).value] + Captures(block[1..], capture)
    else Captures(block[1..], capture)
  }

  /** Collecting is line by line: a split block collects the concatenation of its halves. */
  lemma {:induction false} CapturesAppend(a: seq<string>, b: seq<string>, capture: string -> Option<string>)
    ensures Captures(a + b, capture) == Captures(a, capture) + Captures(b, capture)
    decreases |a|
  {
    if |a| > 0 {
      assert (a + b)[0] == a[0];
      assert (a + b)[1..] == a[1..] + b;
      CapturesAppend(a[1..], b, capture);
      if capture(a[0]).Some? {
        var x := [capture(a[0]).value];
        assert Captures(a, capture) == x + Captures(a[1..], capture);
        assert Captures(a + b, capture) == x + Captures(a[1..] + b, capture);
        assert x + (Captures(a[1..], capture) + Captures(b, capture))
            == (x + Captures(a[1..], capture)) + Captures(b, capture);
      } else {
        assert Captures(a, capture) == Captures(a[1..], capture);
        assert Captures(a + b, capture) == Captures(a[1..] + b, capture);
      }
    } else {
      assert a + b == b;
    }
  }

  /** Scanning one more line appends that line's capture, if any. */
  lemma CapturesSnoc(block: seq<string>, line: string, capture: string -> Option<string>)
    ensures Captures(block + [line], capture)
         == Captures(block, capture) + (if capture(line).Some? then [capture(line).value] else [])
  {
    CapturesAppend(block, [line], capture);
    assert [line][1..] == [];
  }

  /** Every collected value is the capture of some line of the block, and every captured line contributes one. */
  lemma {:induction false} CapturesSpec(block: seq<string>, capture: string -> Option<string>)
    ensures forall v :: v in Captures(block, capture) ==> exists i :: 0 <= i < |block| && capture(block[i]) == Some(v)
    ensures forall i :: 0 <= i < |block| && capture(block[i]).Some? ==> capture(block[i]).value in Captures(block, capture)
    decreases |block|
  {
    if |block| > 0 {
      CapturesSpec(block[1..], capture);
      assert forall i :: 0 < i < |block| ==> block[i] == block[1..][i - 1];
    }
  }

  /** The addresses of an e-mail block. */
  function EmailsIn(block: seq<string>): seq<string> {
    Captures(block, EmailCapture)
  }

  /**
   * `getDeveloperEmailAddresses`: `None` stands for a `pom.xml` that cannot
   * be opened. The collected block starts at the first line containing the
   * opening marker and stops before the first line from there on that
   * contains the closing marker.
   */
  function DeveloperEmailAddresses(pom: Option<seq<string>>): (r: seq<string>)
    ensures pom.None? ==> r == []
  {
    match pom
    case None => []
    case Some(lines) => EmailsIn(DevelopersSection(lines))
  }

  /**
   * The developer block: from the first line containing the opening marker
   * up to, not including, the first line from there on containing the
   * closing marker.
   */
  function DevelopersSection(lines: seq<string>): (block: seq<string>)
    ensures |block| <= |lines|
  {
    var open := FirstContaining(lines, DevelopersOpeningTag, 0);
    var close := FirstContaining(lines, DevelopersClosingTag, open);
    lines[open..close]
  }

  /**
   * The collected addresses are exactly those of the lines from the first
   * line with the opening marker up to, not including, the first line from
   * there on with the closing marker; without an opening marker there are none.
   */
  lemma DeveloperEmailAddressesSpec(lines: seq<string>, open: nat, close: nat)
    requires open <= close <= |lines|
    requires forall j :: 0 <= j < open ==> !Contains(lines[j], DevelopersOpeningTag)
    requires open < |lines| ==> Contains(lines[open], DevelopersOpeningTag)
    requires forall j :: open <= j < close ==> !Contains(lines[j], DevelopersClosingTag)
    requires close < |lines| ==> Contains(lines[close], DevelopersClosingTag)
    ensures DeveloperEmailAddresses(Some(lines)) == EmailsIn(lines[open..close])
    ensures open == |lines| ==> DeveloperEmailAddresses(Some(lines)) == []
  {
    FirstContainingUnique(lines, DevelopersOpeningTag, 0, open);
    FirstContainingUnique(lines, DevelopersClosingTag, open, close);
  }

  /** A search that succeeds within `lines` is not affected by what follows them. */
  lemma {:induction false} FirstContainingExtend(lines: seq<string>, post: seq<string>, tag: string, from: nat)
    requires from <= |lines|
    requires FirstContaining(lines, tag, from) < |lines|
    ensures FirstContaining(lines + post, tag, from) == FirstContaining(lines, tag, from)
    decreases |lines| - from
  {
    assert lines[from] == (lines + post)[from];
    if !Contains(lines[from], tag) {
      FirstContainingExtend(lines, post, tag, from + 1);
    }
  }

  /** Lines before the opening marker are never collected. */
  lemma EmailsBeforeOpeningIgnored(pre: seq<string>, lines: seq<string>)
    requires forall j :: 0 <= j < |pre| ==> !Contains(pre[j], DevelopersOpeningTag)
    ensures DeveloperEmailAddresses(Some(pre + lines)) == DeveloperEmailAddresses(Some(lines))
  {
    SectionAfterPrefix(pre, lines);
  }

  /** Lines without the opening marker in front of a pom leave its developer block unchanged. */
  lemma SectionAfterPrefix(pre: seq<string>, lines: seq<string>)
    requires forall j :: 0 <= j < |pre| ==> !Contains(pre[j], DevelopersOpeningTag)
    ensures DevelopersSection(pre + lines) == DevelopersSection(lines)
  {
    var open := FirstContaining(lines, DevelopersOpeningTag, 0);
    var close := FirstContaining(lines, DevelopersClosingTag, open);
    OpeningAfterPrefix(pre, lines);
    FirstContainingShift(pre, lines, DevelopersClosingTag, open);
    ShiftedSlice(pre, lines, open, close);
  }

  /** Lines without the opening marker in front of a pom shift its opening line by their number. */
  lemma OpeningAfterPrefix(pre: seq<string>, lines: seq<string>)
    requires forall j :: 0 <= j < |pre| ==> !Contains(pre[j], DevelopersOpeningTag)
    ensures FirstContaining(pre + lines, DevelopersOpeningTag, 0) == |pre| + FirstContaining(lines, DevelopersOpeningTag, 0)
  {
    FirstContainingSkip(pre, lines, DevelopersOpeningTag);
    FirstContainingShift(pre, lines, DevelopersOpeningTag, 0);
  }

  /** A search in `pre + lines` from inside `lines` finds the shifted result of the search in `lines`. */
  lemma FirstContainingShift(pre: seq<string>, lines: seq<string>, tag: string, from: nat)
    requires from <= |lines|
    ensures FirstContaining(pre + lines, tag, |pre| + from) == |pre| + FirstContaining(lines, tag, from)
  {
    var all := pre + lines;
    var r := FirstContaining(lines, tag, from);
    assert forall k :: 0 <= k < |lines| ==> all[|pre| + k] == lines[k];
    FirstContainingUnique(all, tag, |pre| + from, |pre| + r);
  }

  /** Lines of `pre` without `tag` do not stop the search. */
  lemma FirstContainingSkip(pre: seq<string>, lines: seq<string>, tag: string)
    requires forall j :: 0 <= j < |pre| ==> !Contains(pre[j], tag)
    ensures FirstContaining(pre + lines, tag, 0) == FirstContaining(pre + lines, tag, |pre|)
  {
    var all := pre + lines;
    var r := FirstContaining(all, tag, |pre|);
    assert forall j :: 0 <= j < |pre| ==> all[j] == pre[j];
    FirstContainingUnique(all, tag, 0, r);
  }

  lemma ShiftedSlice(pre: seq<string>, lines: seq<string>, i: nat, j: nat)
    requires i <= j <= |lines|
    ensures (pre + lines)[|pre| + i..|pre| + j] == lines[i..j]
  {
  }

  /** Once a closing marker follows an opening marker, later lines are never collected. */
  lemma EmailsAfterClosingIgnored(lines: seq<string>, post: seq<string>, o: nat, c: nat)
    requires o <= c < |lines|
    requires Contains(lines[o], DevelopersOpeningTag) && Contains(lines[c], DevelopersClosingTag)
    ensures DeveloperEmailAddresses(Some(lines + post)) == DeveloperEmailAddresses(Some(lines))
  {
    var open := FirstContaining(lines, DevelopersOpeningTag, 0);
    FirstContainingExtend(lines, post, DevelopersOpeningTag, 0);
    var close := FirstContaining(lines, DevelopersClosingTag, open);
    FirstContainingExtend(lines, post, DevelopersClosingTag, open);
    assert (lines + post)[open..close] == lines[open..close];
  }

  /** The first loop of the scan: skip lines up to the first one containing `tag`. */
  method SkipToMarker(lines: seq<string>, tag: string) returns (i: nat)
    ensures i == FirstContaining(lines, tag, 0)
  {
    i := 0;
    while i < |lines| && !Contains(lines[i], tag)
      invariant i <= |lines|
      invariant forall j :: 0 <= j < i ==> !Contains(lines[j], tag)
    {
      i := i + 1;
    }
    FirstContainingUnique(lines, tag, 0, i);
  }

  /** The second loop of the scan: collect captures from `open` until a line contains `closing`. */
  method CollectUntilMarker(lines: seq<string>, open: nat, closing: string, capture: string -> Option<string>)
    returns (values: seq<string>)
    requires open <= |lines|
    ensures values == Captures(lines[open..FirstContaining(lines, closing, open)], capture)
  {
    values := [];
    var i := open;
    while i < |lines| && !Contains(lines[i], closing)
      invariant open <= i <= |lines|
      invariant forall j :: open <= j < i ==> !Contains(lines[j], closing)
      invariant values == Captures(lines[open..i], capture)
    {
      CapturesStep(lines, open, i, capture);
      var m := capture(lines[i]);
      if m.Some? {
        values := values + [m.value];
      }
      i := i + 1;
    }
    FirstContainingUnique(lines, closing, open, i);
  }

  /** Collecting one more line of `lines` appends that line's capture, if any. */
  lemma CapturesStep(lines: seq<string>, open: nat, i: nat, capture: string -> Option<string>)
    requires open <= i < |lines|
    ensures Captures(lines[open..i + 1], capture)
         == Captures(lines[open..i], capture) + (if capture(lines[i]).Some? then [capture(lines[i]).value] else [])
  {
    assert lines[open..i + 1] == lines[open..i] + [lines[i]];
    CapturesSnoc(lines[open..i], lines[i], capture);
  }

  /** The scan as the source writes it: skip to the opening marker, then collect until the closing one. */
  method ScanDeveloperEmailAddresses(pom: Option<seq<string>>) returns (mails: seq<string>)
    ensures mails == DeveloperEmailAddresses(pom)
  {
    if pom.None? {
      return [];
    }
    var open := SkipToMarker(pom.value, DevelopersOpeningTag);
    mails := CollectUntilMarker(pom.value, open, DevelopersClosingTag, EmailCapture);
  }

  // ---------------------------------------------------------------------
  // Repository slug: the first matching line of .git/config
  // ---------------------------------------------------------------------

  /** The first `Some` that `capture` yields over `lines`, in line order. */
  function FirstCapture(lines: seq<string>, capture: string -> Option<string>): (r: Option<string>)
    ensures r.Some? ==> exists i :: 0 <= i < |lines| && capture(lines[i]) == r
  {
    if |lines| == 0 then None
    else if capture(lines[0]).Some? then capture(lines[0])
    else FirstCapture(lines[1..], capture)
  }

  /** `getRepositorySlug`: `None` stands for a configuration file that cannot be opened. */
  function RepositorySlug(config: Option<seq<string>>): (r: Option<string>)
    ensures config.None? ==> r.None?
  {
    match config
    case None => None
    case Some(lines) => FirstCapture(lines, SlugCapture)
  }

  /** The scan finds nothing exactly when no line is captured; otherwise it yields the first line's capture. */
  lemma {:induction false} FirstCaptureSpec(lines: seq<string>, capture: string -> Option<string>)
    ensures FirstCapture(lines, capture).None? <==> forall i :: 0 <= i < |lines| ==> capture(lines[i]).None?
    ensures forall i :: 0 <= i < |lines| && capture(lines[i]).Some? &&
                        (forall j :: 0 <= j < i ==> capture(lines[j]).None?) ==>
                        FirstCapture(lines, capture) == capture(lines[i])
    decreases |lines|
  {
    if |lines| > 0 {
      FirstCaptureSpec(lines[1..], capture);
      assert forall i :: 0 < i < |lines| ==> lines[i] == lines[1..][i - 1];
    }
  }

  /** Once a line has been captured, later lines are ignored. */
  lemma {:induction false} FirstCaptureIgnoresLater(lines: seq<string>, post: seq<string>, capture: string -> Option<string>)
    requires FirstCapture(lines, capture).Some?
    ensures FirstCapture(lines + post, capture) == FirstCapture(lines, capture)
    decreases |lines|
  {
    assert (lines + post)[0] == lines[0];
    if capture(lines[0]).None? {
      assert (lines + post)[1..] == lines[1..] + post;
      FirstCaptureIgnoresLater(lines[1..], post, capture);
    }
  }

  /**
   * The repository slug is absent when the file cannot be read or no line
   * matches the slug pattern; otherwise it is the capture of the first
   * matching line, whatever follows it.
   */
  lemma RepositorySlugSpec(lines: seq<string>, i: nat, post: seq<string>)
    requires i < |lines| && SlugCapture(lines[i]).Some?
    requires forall j :: 0 <= j < i ==> SlugCapture(lines[j]).None?
    ensures RepositorySlug(Some(lines)) == SlugCapture(lines[i])
    ensures RepositorySlug(Some(lines + post)) == SlugCapture(lines[i])
  {
    FirstCaptureSpec(lines, SlugCapture);
    FirstCaptureIgnoresLater(lines, post, SlugCapture);
  }

  /** Without a matching line there is no slug. */
  lemma RepositorySlugAbsent(lines: seq<string>)
    requires forall j :: 0 <= j < |lines| ==> SlugCapture(lines[j]).None?
    ensures RepositorySlug(Some(lines)).None?
  {
    FirstCaptureSpec(lines, SlugCapture);
  }

  // ---------------------------------------------------------------------
  // Project root directory
  // ---------------------------------------------------------------------

  const Backslash := '\\'
  const ForwardSlash := '/'

  /**
   * The fallback of `getProjectRootDirectory`: `user.dir` cut before its
   * last backslash, or, when it has none, before its last slash; unchanged
   * when it has neither.
   */
  function ParentDirectory(userDir: string): (r: string)
    ensures Backslash in userDir ==>
              |r| < |userDir| && r == userDir[..|r|] && userDir[|r|] == Backslash && Backslash !in userDir[|r| + 1..]
    ensures Backslash !in userDir && ForwardSlash in userDir ==>
              |r| < |userDir| && r == userDir[..|r|] && userDir[|r|] == ForwardSlash && ForwardSlash !in userDir[|r| + 1..]
    ensures Backslash !in userDir && ForwardSlash !in userDir ==> r == userDir
  {
    match LastIndexOf(userDir, Backslash)
    case Some(k) => userDir[..k]
    case None =>
      match LastIndexOf(userDir, ForwardSlash)
      case Some(k) => userDir[..k]
      case None => userDir
  }

  /** Appending a separator and a last component and taking the parent gives back the prefix; a backslash wins over a later slash. */
  lemma ParentDirectoryOfChild(parent: string, sep: char, child: string)
    requires sep == Backslash || (sep == ForwardSlash && Backslash !in parent + child)
    requires sep !in child
    ensures ParentDirectory(parent + [sep] + child) == parent
  {
    var u := parent + [sep] + child;
    assert u == parent + ([sep] + child);
    LastIndexOfJoin(parent, sep, child);
    if sep == ForwardSlash {
      assert forall i :: 0 <= i < |u| ==> u[i] == sep || u[i] in parent + child;
    }
  }

  /** `getProjectRootDirectory` of the plans generator: the first line git prints, or the fallback. */
  function ProjectRootDirectory(gitOutput: Option<string>, userDir: string): (r: string)
    ensures gitOutput.Some? ==> r == gitOutput.value
    ensures gitOutput.None? ==> |r| <= |userDir| && r == userDir[..|r|]
    ensures gitOutput.None? && Backslash in userDir ==>
              |r| < |userDir| && userDir[|r|] == Backslash && Backslash !in userDir[|r| + 1..]
    ensures gitOutput.None? && Backslash !in userDir && ForwardSlash in userDir ==>
              |r| < |userDir| && userDir[|r|] == ForwardSlash && ForwardSlash !in userDir[|r| + 1..]
    ensures gitOutput.None? && Backslash !in userDir && ForwardSlash !in userDir ==> r == userDir
  {
    match gitOutput
    case Some(line) => line
    case None => ParentDirectory(userDir)
  }
}

=== FILE: specs_main.dfy ===
/**
 * `HarvesterBambooSpecs.main` of the plans generator: from the command-line
 * arguments to the documents sent to the Bamboo server.
 */
module HarvesterBambooSpecs {
  import opened Wrappers
  import opened Text
  import opened Keys
  import opened Bamboo
  import opened PlanConstants
  import HarvesterPlan

  // ---------------------------------------------------------------------
  // String.split(" ")
  // ---------------------------------------------------------------------

  /** All fields of `s` between single spaces, empty ones included: one more than the spaces. */
  function Fields(s: string): (r: seq<string>)
    ensures |r| >= 1
    ensures forall i :: 0 <= i < |r| ==> ' ' !in r[i]
  {
    if |s| == 0 then [""]
    else
      var rest := Fields(s[1..]);
      if s[0] == ' ' then [""] + rest else [[s[0]] + rest[0]] + rest[1..]
  }

  /** The fields joined back with single spaces. */
  function Join(fields: seq<string>): string
    requires |fields| >= 1
  {
    if |fields| == 1 then fields[0] else fields[0] + " " + Join(fields[1..])
  }

  /** Splitting on spaces loses nothing: joining the fields gives back the string. */
  lemma {:induction false} JoinFields(s: string)
    ensures Join(Fields(s)) == s
    decreases |s|
  {
    if |s| > 0 {
      var rest := Fields(s[1..]);
      JoinFields(s[1..]);
      if s[0] == ' ' {
        assert ([""] + rest)[1..] == rest;
      } else {
        var r := [[s[0]] + rest[0]] + rest[1..];
        if |rest| > 1 {
          assert r[1..] == rest[1..];
          assert Join(rest) == rest[0] + " " + Join(rest[1..]);
        }
      }
    }
  }

  /** The fields with all trailing empty ones removed. */
  function DropTrailingEmpty(fields: seq<string>): (r: seq<string>)
    ensures |r| <= |fields| && r == fields[..|r|]
    ensures |r| == 0 || r[|r| - 1] != ""
    ensures forall i :: |r| <= i < |fields| ==> fields[i] == ""
  {
    if |fields| == 0 || fields[|fields| - 1] != "" then fields
    else DropTrailingEmpty(fields[..|fields| - 1])
  }

  /**
   * `s.split(" ")`: without a space the whole string is the single field,
   * even when it is empty; otherwise the fields with trailing empty ones dropped.
   */
  function JavaSplit(s: string): (r: seq<string>)
    ensures ' ' !in s ==> r == [s]
    ensures forall i :: 0 <= i < |r| ==> ' ' !in r[i]
  {
    if ' ' !in s then [s]
    else
      var f := Fields(s);
      var r := DropTrailingEmpty(f);
      assert forall i :: 0 <= i < |r| ==> r[i] == f[i];
      r
  }

  /**
   * When `s` has a space, its split followed by the dropped empty fields
   * joins back to `s`, and the split does not end in an empty field.
   */
  lemma JavaSplitJoin(s: string)
    requires ' ' in s
    ensures |JavaSplit(s)| == 0 || JavaSplit(s)[|JavaSplit(s)| - 1] != ""
    ensures var f := Fields(s);
            |JavaSplit(s)| <= |f| && f[..|JavaSplit(s)|] == JavaSplit(s) &&
            (forall i :: |JavaSplit(s)| <= i < |f| ==> f[i] == "") &&
            Join(f) == s
  {
    JoinFields(s);
    var f := Fields(s);
    assert JavaSplit(s) == DropTrailingEmpty(f);
  }

  /** A doubled space gives an empty field, a trailing space none, and an empty string one empty field. */
  lemma JavaSplitExamples()
    ensures JavaSplit("a b") == ["a", "b"]
    ensures JavaSplit("a  b") == ["a", "", "b"]
    ensures JavaSplit("a ") == ["a"]
    ensures JavaSplit("") == [""]
  {
    FieldsOneSpace();
    FieldsTwoSpaces();
    FieldsTrailingSpace();
    assert "a b"[1] == ' ' && "a  b"[1] == ' ' && "a "[1] == ' ';
    assert ["a", ""][..1] == ["a"];
  }

  lemma FieldsOneSpace()
    ensures Fields("a b") == ["a", "b"]
  {
    assert Fields("b") == ["b"] by { assert "b"[1..] == ""; assert ['b'] + "" == "b"; }
    assert Fields(" b") == ["", "b"] by { assert " b"[1..] == "b"; }
    assert "a b"[1..] == " b"; assert ['a'] + "" == "a"; assert ["", "b"][1..] == ["b"];
  }

  lemma FieldsTwoSpaces()
    ensures Fields("a  b") == ["a", "", "b"]
  {
    assert Fields("b") == ["b"] by { assert "b"[1..] == ""; assert ['b'] + "" == "b"; }
    assert Fields(" b") == ["", "b"] by { assert " b"[1..] == "b"; }
    assert Fields("  b") == ["", "", "b"] by { assert "  b"[1..] == " b"; }
    assert "a  b"[1..] == "  b"; assert ['a'] + "" == "a"; assert ["", "", "b"][1..] == ["", "b"];
  }

  lemma FieldsTrailingSpace()
    ensures Fields("a ") == ["a", ""]
  {
    assert Fields(" ") == ["", ""] by { assert " "[1..] == ""; }
    assert "a "[1..] == " "; assert ['a'] + "" == "a"; assert ["", ""][1..] == [""];
  }

  // ---------------------------------------------------------------------
  // createRepository and main
  // ---------------------------------------------------------------------

  /** `createRepository`: the harvester's Bitbucket repository on branch `master` of project `HAR`. */
  function CreateRepository(providerClassName: string, repositorySlug: string): (r: Repository)
    ensures HarvesterRepositoryName.Unfill(r.name) == Some(providerClassName)
    ensures r.slug == repositorySlug && r.projectKey == BitbucketHarvesterProject && r.branch == GitMasterBranch
    ensures r.name != BambooScriptsRepository.name
  {
    var name := HarvesterRepositoryName.Fill(providerClassName);
    UnfillFill(HarvesterRepositoryName, providerClassName);
    assert name[|name| - 1] == 'r';
    Repository(name, BitbucketHarvesterProject, repositorySlug, GitMasterBranch, Some(false), Some(true), Some(true))
  }

  datatype SpecsError = MissingArgument(argumentCount: nat)

  /**
   * `main`: arguments are user, password, provider class name, Bitbucket
   * project, repository slug and space-separated developer e-mails. Fewer
   * than six arguments fail before anything is sent.
   */
  function Run(args: seq<string>): (r: Result<seq<Document>, SpecsError>)
    ensures r.Failure? <==> |args| < 6
    ensures r.Success? ==> |r.value| >= 1 && r.value[0].PlanDocument?
  {
    if |args| < 6 then Failure(MissingArgument(|args|))
    else
      var providerClassName := args[2];
      var project := ToUpperAscii(args[3]);
      var repositorySlug := args[4];
      var devEmails := JavaSplit(args[5]);
      var bambooKey := BambooKey(providerClassName, project);
      var repository := CreateRepository(providerClassName, repositorySlug);
      var plan := HarvesterPlan.Create(repository, bambooKey, providerClassName);
      Success(HarvesterPlan.Publish(plan, devEmails))
  }

  /**
   * With all arguments present, exactly one plan is sent, first. It is well
   * formed, keyed by the provider name without `a`..`z` followed by the
   * upper-cased project, so the key has no lower-case ASCII letter; it is
   * named after the provider and linked to the given repository slug; and
   * the developers of the last argument are granted access in order.
   */
  lemma RunSpec(args: seq<string>)
    requires |args| >= 6
    ensures var trace := Run(args).value;
            var plan := trace[0].plan;
            && (forall i :: 0 <= i < |trace| ==> (trace[i].PlanDocument? <==> i == 0))
            && HarvesterPlan.WellFormed(plan)
            && plan.key == BambooKey(args[2], ToUpperAscii(args[3]))
            && NoLowercase(plan.key)
            && AnalysisPlanName.Unfill(plan.name) == Some(args[2])
            && plan.repositories[0].slug == args[4]
            && Grantees(trace, HarvesterPlan.IsPlanPermissions) == JavaSplit(args[5])
  {
    var project := ToUpperAscii(args[3]);
    ToUpperAsciiIdempotent(args[3]);
    var repository := CreateRepository(args[2], args[4]);
    var plan := HarvesterPlan.Create(repository, BambooKey(args[2], project), args[2]);
    HarvesterPlan.CreateWellFormed(repository, BambooKey(args[2], project), args[2]);
    HarvesterPlan.PublishShape(plan, JavaSplit(args[5]));
    HarvesterPlan.PublishGrantsEachDeveloper(plan, JavaSplit(args[5]));
  }

  /** Missing arguments fail with the number that was given. */
  lemma RunMissingArguments(args: seq<string>)
    requires |args| < 6
    ensures Run(args) == Failure(MissingArgument(|args|))
  {
  }
}

=== FILE: text.dfy ===
/**
 * Character classes and string searches that the Java source takes from
 * `java.lang.String` and `java.util.regex`, restricted to what the model needs.
 */
module Text {
  import opened Wrappers

  /** Java's `\s` (no UNICODE_CHARACTER_CLASS flag): space, tab, newline, vertical tab, form feed, carriage return. */
  predicate IsSpace(c: char) {
    c == ' ' || c == '\t' || c == '\n' || c == '\U{000B}' || c == '\U{000C}' || c == '\r'
  }

  /** Java's `\w`: ASCII letters, digits and underscore. */
  predicate IsWordChar(c: char) {
    ('a' <= c <= 'z') || ('A' <= c <= 'Z') || ('0' <= c <= '9') || c == '_'
  }

  /** The characters an unescaped `.` does not match (Java's line terminators). */
  predicate IsLineTerminator(c: char) {
    c == '\n' || c == '\r' || c == '\U{0085}' || c == '\U{2028}' || c == '\U{2029}'
  }

  /** The class `[a-z]`. */
  predicate IsLower(c: char) {
    'a' <= c <= 'z'
  }

  predicate AllSpace(s: string) {
    forall i :: 0 <= i < |s| ==> IsSpace(s[i])
  }

  predicate AllWordChars(s: string) {
    forall i :: 0 <= i < |s| ==> IsWordChar(s[i])
  }

  /** ASCII part of `String.toUpperCase`: `a`..`z` become `A`..`Z`, every other character is kept. */
  function UpperAscii(c: char): (u: char)
    ensures !IsLower(u)
    ensures IsLower(c) ==> u as int == c as int - 32
    ensures !IsLower(c) ==> u == c
  {
    if IsLower(c) then (c as int - 32) as char else c
  }

  function ToUpperAscii(s: string): (r: string)
    ensures |r| == |s|
    ensures forall i :: 0 <= i < |s| ==> r[i] == UpperAscii(s[i])
  {
    seq(|s|, i requires 0 <= i < |s| => UpperAscii(s[i]))
  }

  /** Upper-casing is idempotent and leaves no ASCII lower-case letter. */
  lemma ToUpperAsciiIdempotent(s: string)
    ensures ToUpperAscii(ToUpperAscii(s)) == ToUpperAscii(s)
    ensures forall i :: 0 <= i < |s| ==> !IsLower(ToUpperAscii(s)[i])
  {
  }

  /** `t` occurs in `s` starting at index `i`. */
  predicate InfixAt(s: string, t: string, i: nat) {
    i + |t| <= |s| && s[i..i + |t|] == t
  }

  /** `String.contains`: `t` is a prefix of some suffix of `s`. */
  predicate Contains(s: string, t: string)
    decreases |s|
  {
    (|t| <= |s| && s[..|t|] == t) || (|s| > 0 && Contains(s[1..], t))
  }

  /** `Contains` holds exactly when `t` occurs in `s` at some position. */
  lemma {:induction false} ContainsSpec(s: string, t: string)
    ensures Contains(s, t) <==> exists i: nat | i <= |s| :: InfixAt(s, t, i)
    decreases |s|
  {
    if |t| <= |s| && s[..|t|] == t {
      assert InfixAt(s, t, 0);
    }
    if |s| > 0 {
      ContainsSpec(s[1..], t);
      if Contains(s[1..], t) {
        var i: nat :| i <= |s| - 1 && InfixAt(s[1..], t, i);
        assert s[i + 1..i + 1 + |t|] == s[1..][i..i + |t|];
        assert InfixAt(s, t, i + 1);
      }
      if exists i: nat | i <= |s| :: InfixAt(s, t, i) {
        var i: nat :| i <= |s| && InfixAt(s, t, i);
        if i > 0 {
          assert s[1..][i - 1..i - 1 + |t|] == s[i..i + |t|];
          assert InfixAt(s[1..], t, i - 1);
        } else {
          assert s[..|t|] == t;
        }
      }
    } else {
      if exists i: nat | i <= |s| :: InfixAt(s, t, i) {
        var i: nat :| i <= |s| && InfixAt(s, t, i);
        assert i == 0 && |t| == 0;
        assert s[..|t|] == t;
      }
    }
  }

  /** `String.lastIndexOf(char)`, with `None` for Java's `-1`. */
  function LastIndexOf(s: string, c: char): (r: Option<nat>)
    ensures r.None? <==> c !in s
    ensures r.Some? ==> r.value < |s| && s[r.value] == c && c !in s[r.value + 1..]
  {
    if |s| == 0 then None
    else if s[|s| - 1] == c then Some(|s| - 1)
    else
      var r := LastIndexOf(s[..|s| - 1], c);
      assert s == s[..|s| - 1] + [s[|s| - 1]];
      r
  }

  /** The last occurrence of `c` in `x + [c] + y` is at `|x|` when `y` has none. */
  lemma {:induction false} LastIndexOfJoin(x: string, c: char, y: string)
    requires c !in y
    ensures LastIndexOf(x + ([c] + y), c) == Some(|x|)
    decreases |y|
  {
    var s := x + ([c] + y);
    if |y| == 0 {
      assert s[|s| - 1] == c;
    } else {
      var y' := y[..|y| - 1];
      assert s[|s| - 1] == y[|y| - 1] && y[|y| - 1] != c;
      assert s[..|s| - 1] == x + ([c] + y');
      assert c !in y' by {
        assert forall k :: 0 <= k < |y'| ==> y'[k] == y[k];
      }
      LastIndexOfJoin(x, c, y');
    }
  }

  /** Number of leading `\s` characters. */
  function LeadingSpaces(s: string): (n: nat)
    ensures n <= |s|
    ensures AllSpace(s[..n])
    ensures n < |s| ==> !IsSpace(s[n])
  {
    if |s| > 0 && IsSpace(s[0]) then 1 + LeadingSpaces(s[1..]) else 0
  }

  /** Number of trailing `\s` characters. */
  function TrailingSpaces(s: string): (n: nat)
    ensures n <= |s|
    ensures AllSpace(s[|s| - n..])
    ensures n < |s| ==> !IsSpace(s[|s| - n - 1])
  {
    if |s| > 0 && IsSpace(s[|s| - 1]) then 1 + TrailingSpaces(s[..|s| - 1]) else 0
  }

  /** A whitespace run followed by a non-space character: the run is exactly the leading whitespace. */
  lemma {:induction false} LeadingSpacesOfPadded(w: string, t: string)
    requires AllSpace(w)
    requires |t| > 0 && !IsSpace(t[0])
    ensures LeadingSpaces(w + t) == |w|
  {
    if |w| > 0 {
      assert (w + t)[1..] == w[1..] + t;
      LeadingSpacesOfPadded(w[1..], t);
    }
  }

  /** A non-space character followed by a whitespace run: the run is exactly the trailing whitespace. */
  lemma {:induction false} TrailingSpacesOfPadded(t: string, w: string)
    requires AllSpace(w)
    requires |t| > 0 && !IsSpace(t[|t| - 1])
    ensures TrailingSpaces(t + w) == |w|
  {
    if |w| > 0 {
      var w' := w[..|w| - 1];
      assert (t + w)[..|t + w| - 1] == t + w';
      TrailingSpacesOfPadded(t, w');
    }
  }
}

=== FILE: wrappers.dfy ===
/** Failure-compatible wrappers: an absent value and a value-or-error. */
module Wrappers {

  /** A value that may be absent; the model's stand-in for a Java `null` return. */
  datatype Option<+T> = None | Some(value: T)

  /** Either a computed value or the error that stopped the computation. */
  datatype Result<+R, +E> = Success(value: R) | Failure(error: E)
}
